=== FILE: README.md ===
# gophermart ledger model

A Dafny model of the loyalty-point ledger at the heart of the gophermart
backend. Users upload order numbers. An accrual engine asks an external
accrual service about pending orders and credits points for processed ones.
Users spend points by withdrawing them against an order they own.

The model has these parts:

- **Order-number checksum** (`Validation`). The Luhn modulus-10 check of
  ISO/IEC 7812-1, Annex B, as the upload handler computes it.
- **Order claiming** (`OrderPersistence`, `OrderService`, `OrderHandler`).
  - the two ownership queries and the insert over the `orders` table;
  - the same-user / other-user / insert decision;
  - the mapping of its outcome to HTTP status codes.
- **Accrual reconciliation** (`AccrualPersistence`, `RateLimitHint`,
  `AccrualService`).
  - the cursor/limit batch query over non-final orders;
  - the transactional "set status, credit the owner" update;
  - the parsing of the rate-limit hint;
  - the classification of the accrual service's reply;
  - one engine cycle as a fold over the batch, and any number of cycles.
- **Points ledger** (`LoyaltyPointPersistence`, `WithdrawalPersistence`,
  `WithdrawalService`, `BalanceService`, `WithdrawalHandler`).
  - balances as sums over the append-only `loyalty_points` table;
  - the two-row withdrawal transaction;
  - the withdrawal handler's check sequence.

Tables are immutable sequences of rows (`Domain.Store`). An operation that
writes returns a new store. An operation that fails returns an error and no
store, which is how a rolled-back transaction is expressed.

These things become explicit parameters:

- Driver errors: a `fails` flag or a fault value naming the failing step.
- The accrual service: a function `svc` from order number to `Reply`.
- The database clock: `now`.

Amounts are `real`. The invariants stated across the model hold for requests
served one at a time; "## Left out" says where concurrent requests break them:

- each order number has at most one owner (`Domain.UniqueOwners`);
- a user's current points are Σaccrued − Σspent over their ledger rows;
- per user, Σspent equals the sum of their withdrawals
  (`Domain.SpentMatchesWithdrawals`).

`AccrualScenarios` holds concrete engine runs that show the three batch-query
defects listed under Findings: the stuck cursor, an order number too large
for PostgreSQL's `INTEGER`, and the empty order number. A fourth finding, a
negative withdrawal sum, is shown in `WithdrawalHandler`. The engine is
modelled as it behaves once started: cmd/gophermart/main.go:44-58 builds the
repositories, services and handlers but never calls `NewAccrual` or
`StartAccrual` (internal/app/service/accrual.go:34-59), so as the program is
wired no order is polled and the three batch-query findings do not arise.

## Model

| member | source | states |
|---|---|---|
| Validation.ValidateOrderNumber | internal/app/handler/validation.go:5-29 | the two-pass loop (digits, then doubling from the right with 9 subtracted above `lastDigit`) returns true exactly when every character is a digit and the Luhn sum is ≡ 0 mod 10 (`LuhnValid`) |
| Validation.NonDigitRejected | internal/app/handler/validation.go:8-11 | a string holding any character outside '0'..'9' is rejected |
| Validation.EmptyAccepted | internal/app/handler/validation.go:5-28 | the empty string has sum 0 and is accepted |
| Validation.LeadingZeroIrrelevant | internal/app/handler/validation.go:15-26 | prefixing '0' never changes the verdict, for any string, because parity is counted from the right |
| Validation.LeadingZeroShift | internal/app/handler/validation.go:15-26 | every suffix sum of a digit string equals the shifted suffix sum of its '0'-prefixed copy |
| Validation.LuhnSumUpdate | internal/app/handler/validation.go:15-28 | replacing one digit moves every suffix sum that covers it by the difference of that position's two contributions |
| Validation.SingleDigitErrorDetected | internal/app/handler/validation.go:15-28 | changing exactly one digit of an accepted number makes it rejected |
| Validation.HandlerTestNumbers | internal/app/handler/order_test.go:21-23 | "12345678903", "9278923470" and "4324802833166747" are accepted and "invalid" is rejected |
| Validation.StandardExample | internal/app/handler/validation.go:5-29 | the standard worked example 79927398713 is accepted |
| OrderPersistence.ScanForUser | internal/infrastructure/persistence/order.go:24 | the row scan finds a match exactly when some row has both the user id and the number |
| OrderPersistence.ScanForOther | internal/infrastructure/persistence/order.go:39 | the row scan finds a match exactly when some row has the number and a different user id |
| OrderPersistence.OrderExistsForUser | internal/infrastructure/persistence/order.go:22-31 | true iff a row carries that user and that number; a driver error gives a generic error and no answer |
| OrderPersistence.OrderClaimedByAnotherUser | internal/infrastructure/persistence/order.go:33-46 | true iff a row carries that number and a different user id; a driver error gives a generic error |
| OrderPersistence.AddOrder | internal/infrastructure/persistence/order.go:48-56 | exactly one new row (user, number, NEW) after all existing rows, which are kept; a driver error writes nothing |
| OrderService.ProcessOrder | internal/app/service/order.go:25-50 | own earlier upload → ErrOrderAlreadyUploadedForThisUser after one call; other owner → ErrOrderAlreadyUploadedByAnotherUser after two calls; otherwise one insert; a failure of each of the three repository calls gives a generic error, stops the call sequence at that call and writes nothing |
| OrderService.ProcessOrderKeepsUniqueOwners | internal/app/service/order.go:25-50 | a claim served on its own preserves "each number has at most one owner" |
| OrderService.ProcessOrderRepeat | internal/app/service/order.go:26-33 | repeating a successful claim reports the user's own upload and leaves the table as it is |
| OrderService.ProcessOrderClaims | internal/app/service/order.go:35-50 | after a successful claim the number is owned by the user and by nobody else |
| OrderHandler.UploadErrorStatus | internal/app/handler/order.go:48-60 | errors.Is(own upload) → 200, else errors.Is(other owner) → 409, anything else → 500 |
| OrderHandler.UploadOrder | internal/app/handler/order.go:26-64 | unreadable body 400; failed checksum 422 before the user id is read; 202 exactly for a valid number nobody owns once all three repository calls succeed, and then with the new row stored; 200 exactly for the user's own earlier upload; 409 exactly for a valid number owned by another user once both lookups succeed; 500 exactly for a missing user id or a repository call that fails before the answer is known, with the table unchanged; the table changes only on 202 |
| OrderHandler.UploadOrderKeepsUniqueOwners | internal/app/handler/order.go:26-64 | an upload served on its own never gives a number a second owner |
| OrderHandler.UploadOrderTestCases | internal/app/handler/order_test.go:63-99 | the five handler test cases get 202, 200, 409, 422 and 500 |
| OrderHandler.GetOrders | internal/app/handler/order.go:94-128 | 204 exactly for an empty list; 200 exactly for a non-empty list that encodes; a use-case error gives 500 |
| LoyaltyPointPersistence.GetCurrentPoints | internal/infrastructure/persistence/loyaltyPoint.go:20-31 | a query failure gives (0, ErrInternalServer); otherwise no error |
| LoyaltyPointPersistence.NoRowsNoPoints | internal/infrastructure/persistence/loyaltyPoint.go:22-24 | a user without ledger rows has 0 points |
| LoyaltyPointPersistence.CurrentPointsIgnoreOthers | internal/infrastructure/persistence/loyaltyPoint.go:24 | rows of other users never change a user's points |
| LoyaltyPointPersistence.CurrentPointsAppend | internal/infrastructure/persistence/loyaltyPoint.go:22-24 | a new row moves the owner's points by its accrued minus its spent amount, and nobody else's |
| Domain.OtherUsersIgnored | internal/infrastructure/persistence/loyaltyPoint.go:22-24 | appended rows of other users change neither Σaccrued nor Σspent of a user |
| WithdrawalPersistence.GetWithdrawalPoints | internal/infrastructure/persistence/withdrawal.go:27-40 | a query failure gives (0, ErrInternalServer); otherwise no error |
| WithdrawalPersistence.NoRowsNothingWithdrawn | internal/infrastructure/persistence/withdrawal.go:30-33 | the `COALESCE(SUM(sum), 0)` over the user's rows: 0 for a user without withdrawals, whatever other users withdrew |
| WithdrawalPersistence.WithdrawnPointsAppend | internal/infrastructure/persistence/withdrawal.go:30-33 | a new withdrawal row raises the total by its sum exactly when it is the user's, and leaves it unchanged otherwise |
| WithdrawalPersistence.WithdrawFunds | internal/infrastructure/persistence/withdrawal.go:42-84 | any failing step (begin, either insert, commit) gives ErrInternalServer and no store; otherwise exactly one ledger row (user, 0, sum) and one withdrawal row (user, order, sum, now) are appended, with no balance check |
| WithdrawalPersistence.WithdrawFundsMovesPoints | internal/infrastructure/persistence/withdrawal.go:54-67 | the user's current points drop by sum and withdrawn total rises by sum; every other user is untouched |
| WithdrawalPersistence.WithdrawFundsKeepsLedger | internal/infrastructure/persistence/withdrawal.go:54-67 | a withdrawal keeps Σspent = Σwithdrawn for every user |
| WithdrawalPersistence.UserWithdrawals | internal/infrastructure/persistence/withdrawal.go:94 | `WHERE user_id = $1`: every row of the user is kept as many times as it occurs, and no row of another user |
| WithdrawalPersistence.SortByTime | internal/infrastructure/persistence/withdrawal.go:95 | `ORDER BY processed_at ASC`: sorted by time and a permutation of its input |
| WithdrawalPersistence.InsertByTime | internal/infrastructure/persistence/withdrawal.go:95 | inserting into a sorted list keeps it sorted and adds exactly that row |
| WithdrawalPersistence.GetWithdrawalsByUserID | internal/infrastructure/persistence/withdrawal.go:86-103 | exactly the user's rows (as a multiset), ascending by processed_at; a failure gives ErrInternalServer |
| WithdrawalService.ValidBalanceKeepsNonNegative | internal/app/service/withdrawal.go:23-25 | a sum passes `ValidBalance` (`current >= sum`) against the user's current points exactly when debiting it through WithdrawFunds leaves those points non-negative, so spending the whole balance is allowed |
| WithdrawalService.WithdrawFunds | internal/app/service/withdrawal.go:27-38 | any repository error becomes exactly ErrInternalServer; on success user, order and sum reach the repository unchanged |
| WithdrawalService.GetWithdrawalsByUserID | internal/app/service/withdrawal.go:40-47 | the repository's list unchanged, or its error wrapped so that errors.Is still finds ErrInternalServer |
| BalanceService.GetBalanceByUserID | internal/app/service/balance.go:30-39 | on success (Σaccrued − Σspent, Σwithdrawn) as the repositories report them; a loyalty failure gives (0, 0, ErrInternalServer) without asking the withdrawal repository; a withdrawal failure gives (0, 0, ErrInternalServer); no store is returned |
| BalanceService.BalanceAddsUp | internal/app/service/balance.go:30-39 | in a consistent ledger current plus withdrawn is everything the user was credited |
| BalanceService.BalanceTestCase | internal/app/service/balance_test.go:43-53 | a ledger with a 542.5 credit and a 42 withdrawal gives 500.5 current and 42 withdrawn |
| WithdrawalHandler.Withdraw | internal/app/handler/withdrawal.go:38-79 | bad body 422; no user 401; balance lookup error 500; 402 iff the current balance does not cover the sum, before the order is looked at; 422 iff the body is bad or, once the balance passed, the user does not own the order; a failing order lookup or a failing debit after that 500; 200 iff every check passed and the debit committed, with both rows appended; the store is unchanged on every other answer |
| WithdrawalHandler.WithdrawIgnoresWithdrawnTotal | internal/app/handler/withdrawal.go:52-58 | only `current` is compared with the sum: the withdrawal rows never change the answer |
| WithdrawalHandler.WithdrawKeepsInvariants | internal/app/handler/withdrawal.go:52-79 | a withdrawal served on its own keeps unique owners and Σspent = Σwithdrawn, and never takes a non-negative balance below zero |
| WithdrawalHandler.WithdrawTestCases | internal/app/handler/withdrawal_test.go:93-151 | the three handler test cases get 200, 402 and 422 |
| WithdrawalHandler.NegativeSumRaisesPoints | internal/app/handler/withdrawal.go:38-79 | as written, a negative sum against an owned order passes every check, answers 200 and raises the user's current points by −sum |
| WithdrawalHandler.WithdrawCorrected | internal/app/handler/withdrawal.go:38-79 | corrected handler: a sum that is not positive gets 422 and nothing is written; any other request is answered as `Withdraw` answers it; every 200 lowers the user's current points and leaves them non-negative |
| AccrualPersistence.LastOrderNumber | internal/infrastructure/persistence/accrual.go:28-32 | `ORDER BY number DESC LIMIT 1`: a stored number that no other stored number exceeds in text order |
| AccrualPersistence.StartCursor | internal/infrastructure/persistence/accrual.go:34-36 | the cursor becomes "0" exactly when it is empty or equals the largest stored number, and is kept otherwise |
| Decimal.Cast | internal/infrastructure/persistence/accrual.go:41 | PostgreSQL's cast of a number: a non-empty digit string converts to its value, and for `INTEGER` only when the value is at most 2147483647; anything else, the empty string included, is an error |
| Decimal.CastOfShow | internal/infrastructure/persistence/accrual.go:41 | the decimal rendering of any n casts back to n as `NUMERIC`, and casts as `INTEGER` exactly when n ≤ 2147483647 |
| Decimal.LongDigitsOverflowInteger | internal/infrastructure/persistence/accrual.go:41 | a digit string of eleven digits or more without a leading zero never casts as `INTEGER`, and always casts as `NUMERIC` to its value |
| AccrualPersistence.Candidates | internal/infrastructure/persistence/accrual.go:38-41 | a row is selected iff it is not INVALID or PROCESSED and its cast number is strictly above the cursor |
| AccrualPersistence.CandidatesKeepMultiplicity | internal/infrastructure/persistence/accrual.go:38-41 | the filter keeps every selected row as many times as the table holds it, and no other row |
| AccrualPersistence.Take | internal/infrastructure/persistence/accrual.go:42 | `LIMIT n`: the first min(n, length) rows |
| AccrualPersistence.Scan | internal/infrastructure/persistence/accrual.go:38-42 | `LIMIT` without `ORDER BY`, read as a scan in table order: limit 0 reads nothing and answers no rows; a result is the first `limit` selected rows |
| AccrualPersistence.CastableScanSucceeds | internal/infrastructure/persistence/accrual.go:38-42 | a table whose pending numbers all cast never makes the scan fail |
| AccrualPersistence.GetNonFinalOrders | internal/infrastructure/persistence/accrual.go:21-56 | an empty table, a failing driver or a cursor that `INTEGER` cannot hold is an error; a table whose pending numbers all cast gives a result otherwise; a result is the first `limit` selected rows in table order, each non-final with a number strictly above the start cursor |
| AccrualPersistence.GetNonFinalOrdersFailsIffBlocked | internal/infrastructure/persistence/accrual.go:38-53 | with a usable cursor the query fails exactly when the scan, before it holds `limit` rows, reaches a pending row whose number `INTEGER` cannot hold (`Blocks`) |
| AccrualPersistence.BlockedScanFails | internal/infrastructure/persistence/accrual.go:38-42 | a pending row whose number does not cast, with fewer than `limit` selected rows before it, makes the scan fail |
| AccrualPersistence.FailedScanIsBlocked | internal/infrastructure/persistence/accrual.go:38-42 | conversely, a scan that fails has reached such a row |
| AccrualPersistence.ScanStopsAtLimit | internal/infrastructure/persistence/accrual.go:38-42 | once the rows before index k hold exactly `limit` selected rows and their pending numbers all cast, the scan answers with those rows, whatever the rows from k on hold |
| AccrualPersistence.ScanMatchesWider | internal/infrastructure/persistence/accrual.go:38-42 | a scan that the `INTEGER` casts do not stop reads the same rows as one under a cast that accepts every such number with the same value, such as `NUMERIC` |
| AccrualPersistence.UncastableFailsBatch | internal/infrastructure/persistence/accrual.go:38-53 | one pending order whose number `INTEGER` cannot take, the empty number included, makes the batch query fail whatever the cursor, once fewer than `limit` rows before it are selected from cursor 0 (so the scan reaches it from any cursor) |
| AccrualPersistence.OutOfRangeFailsBatch | internal/infrastructure/persistence/accrual.go:38-53 | the same for one pending order whose number exceeds 2147483647 |
| AccrualPersistence.SetStatus | internal/infrastructure/persistence/accrual.go:80-87 | every row with the number gets the status; owners, numbers and all other rows are kept |
| AccrualPersistence.OwnerOf | internal/infrastructure/persistence/accrual.go:91 | the owner of some row with the number, and none iff no row carries it |
| AccrualPersistence.UpdateAccrual | internal/infrastructure/persistence/accrual.go:58-105 | an error iff begin or update fails, or a credit is due and the owner query or insert fails; on success the status is set, and one row (owner, accrual, 0) is appended iff status is PROCESSED and accrual > 0; an error leaves no trace |
| AccrualPersistence.SetStatusKeepsOwners | internal/infrastructure/persistence/accrual.go:80-93 | the owner read after the status update is the owner before it |
| AccrualPersistence.UpdateAccrualLedger | internal/infrastructure/persistence/accrual.go:89-102 | every user's Σspent stays; only the owner's Σaccrued grows, by exactly the accrual |
| AccrualPersistence.UpdateAccrualKeepsLedger | internal/infrastructure/persistence/accrual.go:96-98 | Σspent = Σwithdrawn survives every update |
| AccrualPersistence.UpdateAccrualTwiceCreditsTwice | internal/infrastructure/persistence/accrual.go:89-102 | with no guard on the previous status, confirming the same order twice credits its owner twice |
| AccrualPersistence.SameClaimsKeepUniqueOwners | internal/infrastructure/persistence/accrual.go:80-87 | changing only statuses neither creates nor removes a second owner |
| RateLimitHint.FindHint | internal/app/service/accrual.go:159-163 | the leftmost position at which the pattern matches, or none when it matches nowhere |
| RateLimitHint.MatchAtIsPattern | internal/app/service/accrual.go:159 | a match found by the scanner is a match of `No more than (\d+) requests per minute allowed` |
| RateLimitHint.PatternIsMatchAt | internal/app/service/accrual.go:159 | every match of the regular expression is found by the scanner, with the same captured digits |
| RateLimitHint.ExtractMaxRequests | internal/app/service/accrual.go:157-178 | the number of the first line carrying a hint, an error when that number exceeds the largest 64-bit int, and an error when no line carries one |
| RateLimitHint.ExtractHintLine | internal/app/service/accrual.go:157-170 | round trip: after lines without a hint, the line for a limit n that fits an int reads back as n, whatever follows |
| RateLimitHint.ExtractOverflow | internal/app/service/accrual.go:165-168 | a first hint past the int range is an error even when a later line would be usable |
| AccrualService.NewAccrual | internal/app/service/accrual.go:34-46 | a fresh engine asks for a non-empty batch, from a cursor whose integer cast is 0 and so lies below every positive order number |
| AccrualService.NewAccrualStartsAtBeginning | internal/app/service/accrual.go:20-24 | a fresh engine (limit 20, cursor "0") fetches the first twenty pending orders with a positive number |
| AccrualService.GetAccrualData | internal/app/service/accrual.go:113-155 | only a 429 cancels; a 429 with a usable hint sets limit := N and cursor := this order, and any other reply leaves both; a 204, a transport error or an undecodable body yield nothing; any other code hands on the decoded body |
| AccrualService.RateLimitHintParks | internal/app/service/accrual.go:127-139 | a 429 carrying the hint line for n parks the cursor on the order with limit n |
| AccrualService.Record | internal/app/service/accrual.go:104-110 | UpdateAccrual is called with the reply's own order, accrual and status; nothing is written without data, and a failed update leaves the store as it was |
| AccrualService.RecordKeepsLedger | internal/app/service/accrual.go:104-110 | recording never touches withdrawals or spent totals, changes only statuses, and never lowers an accrued total |
| AccrualService.ProcessOrder | internal/app/service/accrual.go:103-111 | cancels iff the reply is a 429; a cancelled lookup, a 204, a transport error or a bad body write nothing |
| AccrualService.ProcessBatch | internal/app/service/accrual.go:61-76 | the orders looked up are a prefix of the batch, all of it unless stopped; a stopped batch ends at its first 429, and the engine comes from that reply; no earlier lookup was a 429 |
| AccrualService.ProcessBatchKeepsLedger | internal/app/service/accrual.go:61-76 | over a whole batch, withdrawals and spent totals stay, only statuses change, accrued totals never drop |
| AccrualService.RateLimitEndsBatch | internal/app/service/accrual.go:68-75 | after a 429, nothing later in the batch is looked up or updated |
| AccrualService.RunCycle | internal/app/service/accrual.go:62-67 | a failed batch fetch looks nothing up; otherwise the cycle is the batch fold |
| AccrualService.InitRequest | internal/app/service/accrual.go:61-76 | a failed fetch or an empty table changes nothing; at most `limit` lookups; withdrawals and spent totals stay, and only statuses change |
| AccrualService.InitRequestLooksUpPending | internal/app/service/accrual.go:61-76 | every number looked up belongs to a pending order of the table the cycle started from |
| AccrualService.OutOfRangeStallsEngine | internal/app/service/accrual.go:61-66 | with a pending number above 2147483647 that the scan reaches (limit 0, or fewer than `limit` rows before it selected from cursor 0), any number of cycles looks nothing up and changes nothing |
| AccrualService.UncastableStallsEngine | internal/app/service/accrual.go:61-66 | the same for any reached pending number that `INTEGER` cannot take, the empty number included |
| AccrualService.ZeroLimitStallsEngine | internal/app/service/accrual.go:131-135 | an engine whose limit a hint of 0 requests set to 0 looks nothing up and changes nothing in any number of cycles, since only a 429 could change the limit again |
| AccrualService.InitRequestKeepsInvariants | internal/app/service/accrual.go:61-76 | a cycle keeps unique owners and Σspent = Σwithdrawn |
| AccrualService.Cycles | internal/app/service/accrual.go:48-59 | any number of cycles keeps withdrawals, spent totals and claims |
| AccrualService.CyclesKeepInvariants | internal/app/service/accrual.go:48-59 | any number of cycles keeps both ledger invariants |
| AccrualService.IdleCycleRepeats | internal/app/service/accrual.go:48-59 | a cycle that looks nothing up and changes nothing repeats forever |
| AccrualService.TwoCycles | internal/app/service/accrual.go:48-59 | two cycles are the first cycle's lookups followed by the second's |
| AccrualScenarios.StarvationReached | internal/infrastructure/persistence/accrual.go:34-41 | from a fresh engine, a 429 on "18" followed by a confirmation of "26" leaves the cursor on "18" with "18" still NEW |
| AccrualScenarios.StarvedCycleIsIdle | internal/infrastructure/persistence/accrual.go:34-41 | in that state a cycle fetches an empty batch, whatever the service answers |
| AccrualScenarios.StarvationIsPermanent | internal/infrastructure/persistence/accrual.go:34-41 | no number of further cycles ever looks "18" up |
| AccrualScenarios.ConfirmedOrderCreditedOnce | internal/infrastructure/persistence/accrual.go:89-102 | for an accrual service that answers with the polled number, a confirmed upload is credited 500 points once over two cycles, because the first confirmation makes it final |
| AccrualPersistence.GetNonFinalOrdersCorrected | internal/infrastructure/persistence/accrual.go:21-56 | corrected batch query: it succeeds exactly when the driver does and the table is not empty, whatever the numbers and the cursor; it returns at most `limit` pending rows whose numbers are non-empty digit strings above 0; with a positive limit the batch is empty only when no such row exists; with a cursor that casts, the batch is the first `limit` such rows above it, or, when none lies above it, the first `limit` from the beginning |
| AccrualPersistence.CorrectedAgreesWhileProgressing | internal/infrastructure/persistence/accrual.go:21-56 | whenever the query as written answers with a non-empty batch, the corrected query answers with the same batch |
| AccrualPersistence.WrappingMakesProgress | internal/infrastructure/persistence/accrual.go:34-41 | corrected query: a pending order whose number is a digit string above 0 makes every batch succeed and be non-empty, whatever the cursor and whatever else the table holds |
| AccrualService.InitRequestCorrected | internal/app/service/accrual.go:61-76 | one cycle with the corrected query: at most `limit` lookups; withdrawals, spent totals and claims kept; a failed fetch changes nothing |
| AccrualService.InitRequestCorrectedLooksUpPending | internal/app/service/accrual.go:61-76 | the corrected cycle, too, looks up only pending orders of the table it started from, and only numbers that are non-empty digit strings |
| AccrualService.WrappingCyclePolls | internal/app/service/accrual.go:61-76 | with the corrected query a cycle looks up at least one order while a pending order with a digit-string number above 0 exists, whatever the rest of the table holds |
| AccrualScenarios.WrappingPollsStarvedOrder | internal/infrastructure/persistence/accrual.go:34-41 | with the corrected query the starved order "18" is polled in the next cycle |
| AccrualScenarios.LongNumberValue | internal/app/handler/order_test.go:21 | the number the order handler's test accepts, "12345678903", is a digit string worth 12345678903, beyond `INTEGER` |
| AccrualScenarios.LongNumberStallsEngine | internal/infrastructure/persistence/accrual.go:38-53 | once that order is stored, the engine as written looks up nothing in any number of cycles, whatever the accrual service answers |
| AccrualScenarios.LongNumberBehindFullBatch | internal/infrastructure/persistence/accrual.go:38-42 | with "18" stored before "12345678903" and cursor "0", limit 1 answers "18" without reaching the long number, and limit 2 fails |
| AccrualScenarios.CorrectedEnginePollsLongNumber | internal/infrastructure/persistence/accrual.go:38-53 | the corrected engine looks that order up in its first cycle, and nothing else |
| AccrualScenarios.EmptyNumberStored | internal/app/handler/order.go:27-35 | an empty body passes the checksum, and the upload answers 202 and stores a row with the number "" |
| AccrualScenarios.EmptyFirstStored | internal/app/handler/order.go:26-64 | the same user then uploads "18", which is stored after it |
| AccrualScenarios.EmptyNumberStallsEngine | internal/infrastructure/persistence/accrual.go:38-53 | with that table the engine as written looks up nothing, "18" included, in any number of cycles, whatever the cursor and the accrual service |
| AccrualScenarios.CorrectedEnginePollsPastEmpty | internal/infrastructure/persistence/accrual.go:38-53 | the corrected engine passes over "" and looks up "18", and nothing else, in its next cycle, whatever the cursor |

## Left out

- The engine's goroutine and mutex loop, the `generator` channel, context cancellation, the sixty-second sleep and `http.Get`. One cycle is a sequential fold over the batch. The reply is an abstract value: a transport error, or a status code with the body as lines and the decoded JSON.
- `StartAccrual`. Its loop is modelled as `AccrualService.Cycles` over a given number of cycles.
- AccrualService.Cycles: one accrual service `svc` and one outcome `fault` per order number serve every cycle, and the batch query never has a driver error. So the lemmas over several cycles cover a service that answers the same way in every cycle. A single cycle (`InitRequest`) takes any `svc`, `fault` and fetch failure.
- JSON encoding and decoding, SQL text and the database driver. Decoding results are inputs; driver errors are flags or fault values.
- float64 arithmetic. Amounts are `real`, so rounding is not modelled.
- Logging throughout, and the error of `Body.Close` after a 200 in `Withdraw` (internal/app/handler/withdrawal.go:81-85). The status stays 200, but `http.Error` appends the error text to the response body. The model has no response body.
- The commit error that the deferred function in `UpdateAccrual` assigns to a local and swallows. A failed commit is not modelled.
- RateLimitHint.ExtractMaxRequests: the scanner's own read errors and its line-length limit are not modelled. The body arrives already split into lines.
- AccrualPersistence.GetNonFinalOrders: the model evaluates the status test before the cast. So a final row whose number `INTEGER` cannot hold does not fail the query. PostgreSQL does not promise that order, and the source's query may also fail on such a row.
- AccrualPersistence.GetNonFinalOrders: the query has no `ORDER BY`. The model reads the table in stored order and stops once it holds `limit` rows, as a sequential scan does. Another plan may read rows in another order, so PostgreSQL promises neither which rows come back nor whether the scan reaches a bad number before the limit.
- AccrualPersistence.GetNonFinalOrders: `CAST($3 AS INTEGER)` on the cursor is modelled as failing before any row is read, `LIMIT 0` included.
- AccrualPersistence.GetNonFinalOrders: a result does not imply that every pending number in the table casts, only those the scan reached before it held `limit` rows.
- OrderService.ProcessOrderKeepsUniqueOwners: holds for uploads served one at a time. The two lookups and the insert (internal/app/service/order.go:25-50) share no transaction, and net/http serves requests concurrently. So two users uploading the same number at once can both pass the lookups and both insert. No `UNIQUE` constraint on the number is visible; the schema is not part of this model.
- OrderHandler.UploadOrderKeepsUniqueOwners: the same, for the handler around it.
- WithdrawalHandler.WithdrawKeepsInvariants: holds for withdrawals served one at a time. The balance is read (internal/app/handler/withdrawal.go:52-56) outside the transaction that `WithdrawFunds` opens to debit it (internal/app/handler/withdrawal.go:73). So two concurrent withdrawals can both pass `ValidBalance` and together take a non-negative balance below zero.
- Decimal.Cast: PostgreSQL also accepts surrounding blanks and a sign. The checksum rejects every character outside '0'..'9', so a stored number is a digit string or empty, and that case does not arise.
- LoyaltyPointPersistence.GetCurrentPoints: the contract states only the error behaviour. The value (Σaccrued − Σspent) is stated by the lemmas about it rather than restated in the contract.
- WithdrawalPersistence.GetWithdrawalPoints: the contract states only the error behaviour. The value (Σwithdrawn) is stated by the lemmas about it, `NoRowsNothingWithdrawn` and `WithdrawnPointsAppend`.
- WithdrawalHandler.Withdraw: the `OrderExists` use case it calls has no implementation in the order service. It is modelled as the repository's `OrderExistsForUser`, which is what the handler tests stub.
- The second, identical copy of `ValidateOrderNumber` in internal/app/handler/order.go:66-92 is modelled once, as `Validation.ValidateOrderNumber`.
- The status constants of the domain package are not part of this model. Their values "NEW", "PROCESSING", "INVALID" and "PROCESSED" follow the literal "PROCESSED" in `UpdateAccrual`.
- `UpdateAccrual` has no guard on the previous status. The model follows the code, and `AccrualPersistence.UpdateAccrualTwiceCreditsTwice` shows the consequence. The engine never re-polls a final order. So, for an accrual service that answers with the polled number, an order is credited once (`AccrualScenarios.ConfirmedOrderCreditedOnce`). The credit goes to the order the reply names (internal/app/service/accrual.go:106), not to the polled one. A reply that names another order credits that order's owner, even when that order is already final.
- Users, authentication, the gzip and logger middleware, the balance handler's JSON, configuration, routing and wiring are outside the ledger core.

## Findings

| source | as written | input that shows it | evidently intended | confidence | as-written member | corrected member |
|---|---|---|---|---|---|---|
| internal/infrastructure/persistence/accrual.go:34-41 | the cursor left by a 429 is reset to "0" only when it equals the largest stored number (in text order), and the batch takes only numbers strictly above it | orders [(1,"18",NEW), (1,"26",PROCESSED)], cursor "18" after a 429 on "18", limit 20 | when nothing pending lies above the cursor, the next batch starts again from the beginning, so every pending order is eventually polled | not executed | AccrualPersistence.GetNonFinalOrders, with AccrualScenarios.StarvationReached, AccrualScenarios.StarvedCycleIsIdle and AccrualScenarios.StarvationIsPermanent | AccrualPersistence.GetNonFinalOrdersCorrected, with AccrualPersistence.WrappingMakesProgress, AccrualService.WrappingCyclePolls and AccrualScenarios.WrappingPollsStarvedOrder |
| internal/infrastructure/persistence/accrual.go:38-42 | the batch filter casts every pending number with `CAST(number AS INTEGER)`, PostgreSQL's four-byte integer, so a pending number above 2147483647 that the scan reaches before it holds `limit` rows makes the query fail; the engine only logs the error and looks nothing up, in every cycle | orders [(1,"12345678903",NEW)], the number the order handler's test accepts; any cursor and any limit (that row is first in the table) | order numbers of any length compare by their value, so that order is polled | not executed | AccrualPersistence.GetNonFinalOrders, with Decimal.LongDigitsOverflowInteger, AccrualPersistence.OutOfRangeFailsBatch, AccrualService.OutOfRangeStallsEngine, AccrualScenarios.LongNumberBehindFullBatch and AccrualScenarios.LongNumberStallsEngine | AccrualPersistence.GetNonFinalOrdersCorrected, with AccrualPersistence.WrappingMakesProgress and AccrualScenarios.CorrectedEnginePollsLongNumber |
| internal/infrastructure/persistence/accrual.go:38-42 | the checksum accepts the empty body (internal/app/handler/order.go:27-35), so "" is stored as an order; `CAST('' AS INTEGER)` is an error, so from then on every batch query that reaches that row fails and no order is polled again | user 1 uploads "" and then "18"; any cursor and any limit ("" is first in the table) | a row whose number is not a digit string does not stop the other orders from being polled | not executed | AccrualPersistence.GetNonFinalOrders, with AccrualPersistence.UncastableFailsBatch, AccrualService.UncastableStallsEngine, AccrualScenarios.EmptyNumberStored and AccrualScenarios.EmptyNumberStallsEngine | AccrualPersistence.GetNonFinalOrdersCorrected, with AccrualPersistence.WrappingMakesProgress and AccrualScenarios.CorrectedEnginePollsPastEmpty |
| internal/app/handler/withdrawal.go:38-79 | nothing checks the sign of `sum`: a negative sum passes `ValidBalance` (internal/app/service/withdrawal.go:23-25), and its debit row credits the user | user 1 owns order "2377225624" and has 0 points; a request {order "2377225624", sum −100} | a withdrawal sum must be positive, so a withdrawal never raises the balance | not executed | WithdrawalHandler.Withdraw, with WithdrawalHandler.NegativeSumRaisesPoints | WithdrawalHandler.WithdrawCorrected |

=== FILE: accrual_persistence.dfy ===
/**
 * The accrual repository: the batch query that feeds the reconciliation
 * engine and the transactional status-and-credit update.
 *
 * Order numbers are text in the `orders` table. `ORDER BY number DESC` on
 * text compares lexicographically, while the batch filter compares
 * `CAST(number AS INTEGER)` values. The database is PostgreSQL, whose
 * `INTEGER` holds four bytes: a longer number does not cast, and the query
 * fails. The batch query has no `ORDER BY`, so the model returns the selected
 * rows in table order.
 */
module AccrualPersistence {

  import opened Domain
  import opened Decimal

  // ---------------------------------------------------------------------------
  // The largest stored number, as `ORDER BY number DESC LIMIT 1` finds it

  /** Lexicographic order on text. */
  predicate LexLe(a: string, b: string)
    decreases |a|
  {
    |a| == 0 || (|b| > 0 && (a[0] < b[0] || (a[0] == b[0] && LexLe(a[1..], b[1..]))))
  }

  lemma {:induction false} LexLeTotal(a: string, b: string)
    ensures LexLe(a, b) || LexLe(b, a)
    decreases |a|
  {
    if |a| > 0 && |b| > 0 && a[0] == b[0] {
      LexLeTotal(a[1..], b[1..]);
    }
  }

  lemma {:induction false} LexLeTransitive(a: string, b: string, c: string)
    requires LexLe(a, b) && LexLe(b, c)
    ensures LexLe(a, c)
    decreases |a|
  {
    if |a| > 0 && a[0] == b[0] && b[0] == c[0] {
      LexLeTransitive(a[1..], b[1..], c[1..]);
    }
  }

  /** `SELECT number FROM orders ORDER BY number DESC LIMIT 1`: the largest
      stored number in text order. */
  function LastOrderNumber(orders: seq<OrderRow>): (m: string)
    requires |orders| > 0
    ensures exists i :: 0 <= i < |orders| && orders[i].number == m
    ensures forall i :: 0 <= i < |orders| ==> LexLe(orders[i].number, m)
  {
    if |orders| == 1 then
      LexLeTotal(orders[0].number, orders[0].number);
      orders[0].number
    else
      var rest := LastOrderNumber(orders[1..]);
      assert forall i :: 1 <= i < |orders| ==> orders[i] == orders[1..][i - 1];
      LexLeTotal(rest, orders[0].number);
      if LexLe(rest, orders[0].number) then
        assert forall i :: 1 <= i < |orders| ==> LexLe(orders[i].number, orders[0].number) by {
          forall i | 1 <= i < |orders| ensures LexLe(orders[i].number, orders[0].number) {
            LexLeTransitive(orders[i].number, rest, orders[0].number);
          }
        }
        LexLeTotal(orders[0].number, orders[0].number);
        orders[0].number
      else
        rest
  }

  // ---------------------------------------------------------------------------
  // The batch of non-final orders

  /** Every non-final row's number converts under the cast `t`: the rows the
      filter casts, once the status test has let them through. */
  predicate NonFinalCastable(orders: seq<OrderRow>, t: SqlCast)
  {
    forall i :: 0 <= i < |orders| && !IsFinal(orders[i].status) ==> Cast(t, orders[i].number).Some?
  }

  /** The filter of the batch query, with the numbers cast by `t`. */
  predicate Selected(row: OrderRow, cursor: nat, t: SqlCast)
  {
    !IsFinal(row.status) && Cast(t, row.number).Some? && Cast(t, row.number).value > cursor
  }

  /** The selected rows, in table order. */
  function Candidates(orders: seq<OrderRow>, cursor: nat, t: SqlCast): (rows: seq<OrderRow>)
    ensures forall i :: 0 <= i < |rows| ==> Selected(rows[i], cursor, t)
    ensures forall row :: row in rows <==> row in orders && Selected(row, cursor, t)
  {
    if orders == [] then []
    else
      assert forall row :: row in orders <==> row == orders[0] || row in orders[1..];
      (if Selected(orders[0], cursor, t) then [orders[0]] else []) + Candidates(orders[1..], cursor, t)
  }

  /** The filter keeps each selected row as often as the table holds it, and
      no other row. */
  lemma {:induction false} CandidatesKeepMultiplicity(orders: seq<OrderRow>, cursor: nat, t: SqlCast)
    ensures forall row ::
      multiset(Candidates(orders, cursor, t))[row] == if Selected(row, cursor, t) then multiset(orders)[row] else 0
  {
    if orders != [] {
      assert orders == [orders[0]] + orders[1..];
      CandidatesKeepMultiplicity(orders[1..], cursor, t);
    }
  }

  /** `LIMIT n`. */
  function Take(rows: seq<OrderRow>, limit: nat): (r: seq<OrderRow>)
    ensures |r| == if |rows| < limit then |rows| else limit
    ensures r == rows[..|r|]
  {
    if |rows| <= limit then rows else rows[..limit]
  }

  /** The cursor the batch query starts from: "0" when the given cursor is
      empty or equals the largest stored number. */
  function StartCursor(orders: seq<OrderRow>, cursor: string): (from: string)
    requires |orders| > 0
    ensures from == "0" || from == cursor
    ensures from != cursor <==> cursor != "0" && (cursor == "" || cursor == LastOrderNumber(orders))
  {
    if cursor == LastOrderNumber(orders) || cursor == "" then "0" else cursor
  }

  /** A pending row that stops the scan: its number does not cast, and fewer
      than `limit` rows were selected before the scan reached it. */
  predicate Blocks(orders: seq<OrderRow>, k: int, cursor: nat, limit: nat, t: SqlCast)
    requires 0 <= k < |orders|
  {
    !IsFinal(orders[k].status) && Cast(t, orders[k].number).None? && |Candidates(orders[..k], cursor, t)| < limit
  }

  /** `WHERE ... LIMIT n` without `ORDER BY`, run as a scan of the table in
      order: it stops once `limit` rows are selected (`LIMIT 0` reads no row),
      skips final rows before casting, and fails at the first pending number
      it reaches that does not cast. */
  function Scan(orders: seq<OrderRow>, cursor: nat, limit: nat, t: SqlCast): (r: Result<seq<OrderRow>>)
    ensures limit == 0 ==> r == Ok([])
    ensures r.Ok? ==> r.value == Take(Candidates(orders, cursor, t), limit)
    decreases |orders|
  {
    if limit == 0 || orders == [] then Ok([])
    else
      if IsFinal(orders[0].status) then
        assert Candidates(orders, cursor, t) == Candidates(orders[1..], cursor, t);
        Scan(orders[1..], cursor, limit, t)
      else
        match Cast(t, orders[0].number)
        case None => Err(Failure)
        case Some(v) =>
          if v > cursor then
            match Scan(orders[1..], cursor, limit - 1, t)
            case Err(e) => Err(e)
            case Ok(rest) =>
              assert Candidates(orders, cursor, t) == [orders[0]] + Candidates(orders[1..], cursor, t);
              TakeCons(orders[0], Candidates(orders[1..], cursor, t), limit);
              Ok([orders[0]] + rest)
          else
            assert Candidates(orders, cursor, t) == Candidates(orders[1..], cursor, t);
            Scan(orders[1..], cursor, limit, t)
  }

  /** A table whose pending numbers all cast never makes the scan fail. */
  lemma {:induction false} CastableScanSucceeds(orders: seq<OrderRow>, cursor: nat, limit: nat, t: SqlCast)
    ensures NonFinalCastable(orders, t) ==> Scan(orders, cursor, limit, t).Ok?
    decreases |orders|
  {
    if NonFinalCastable(orders, t) && limit > 0 && orders != [] {
      var rest := orders[1..];
      assert NonFinalCastable(rest, t) by {
        forall i | 0 <= i < |rest| ensures !IsFinal(rest[i].status) ==> Cast(t, rest[i].number).Some? {
          assert rest[i] == orders[i + 1];
        }
      }
      assert IsFinal(orders[0].status) || Cast(t, orders[0].number).Some?;
      ScanStep(orders, cursor, limit, t);
      var limit' := if Selected(orders[0], cursor, t) then limit - 1 else limit;
      CastableScanSucceeds(rest, cursor, limit', t);
    }
  }

  /** Taking from a row followed by others takes that row, then one fewer. */
  lemma TakeCons(row: OrderRow, rows: seq<OrderRow>, limit: nat)
    requires limit > 0
    ensures Take([row] + rows, limit) == [row] + Take(rows, limit - 1)
  {
  }

  /** The candidates before row `k + 1` are those before row `k`, then row `k`
      when it is selected. */
  lemma CandidatesPrefixStep(orders: seq<OrderRow>, k: int, cursor: nat, t: SqlCast)
    requires 0 < k <= |orders|
    ensures Candidates(orders[..k], cursor, t)
         == (if Selected(orders[0], cursor, t) then [orders[0]] else []) + Candidates(orders[1..][..k - 1], cursor, t)
  {
    assert orders[..k][1..] == orders[1..][..k - 1];
  }

  /** `rows` ahead of a scan result; an error stays an error. */
  function Prepend(rows: seq<OrderRow>, r: Result<seq<OrderRow>>): (p: Result<seq<OrderRow>>)
    ensures p.Err? <==> r.Err?
    ensures p.Ok? ==> p.value == rows + r.value
  {
    match r
    case Err(e) => Err(e)
    case Ok(v) => Ok(rows + v)
  }

  /** One step of the scan past a first row that does not stop it: the rest
      is scanned with one row fewer to find when the first row is selected. */
  lemma ScanStep(orders: seq<OrderRow>, cursor: nat, limit: nat, t: SqlCast)
    requires limit > 0 && orders != []
    requires IsFinal(orders[0].status) || Cast(t, orders[0].number).Some?
    ensures Scan(orders, cursor, limit, t)
         == if Selected(orders[0], cursor, t) then Prepend([orders[0]], Scan(orders[1..], cursor, limit - 1, t))
            else Scan(orders[1..], cursor, limit, t)
  {
  }

  /** A row that blocks the scan makes it fail. */
  lemma {:induction false} BlockedScanFails(orders: seq<OrderRow>, k: int, cursor: nat, limit: nat, t: SqlCast)
    requires 0 <= k < |orders| && Blocks(orders, k, cursor, limit, t)
    ensures Scan(orders, cursor, limit, t).Err?
    decreases |orders|
  {
    if k > 0 && (IsFinal(orders[0].status) || Cast(t, orders[0].number).Some?) {
      var rest := orders[1..];
      var limit' := if Selected(orders[0], cursor, t) then limit - 1 else limit;
      assert Blocks(rest, k - 1, cursor, limit', t) by {
        CandidatesPrefixStep(orders, k, cursor, t);
        assert rest[k - 1] == orders[k];
      }
      BlockedScanFails(rest, k - 1, cursor, limit', t);
      ScanStep(orders, cursor, limit, t);
      assert Scan(orders, cursor, limit, t).Err? == Scan(rest, cursor, limit', t).Err?;
    }
  }

  /** A scan fails only at a row that blocks it. */
  lemma {:induction false} FailedScanIsBlocked(orders: seq<OrderRow>, cursor: nat, limit: nat, t: SqlCast)
    requires Scan(orders, cursor, limit, t).Err?
    ensures exists k :: 0 <= k < |orders| && Blocks(orders, k, cursor, limit, t)
    decreases |orders|
  {
    assert orders[..0] == [];
    if !IsFinal(orders[0].status) && Cast(t, orders[0].number).None? {
      assert Blocks(orders, 0, cursor, limit, t);
    } else {
      var rest := orders[1..];
      var limit' := if Selected(orders[0], cursor, t) then limit - 1 else limit;
      ScanStep(orders, cursor, limit, t);
      FailedScanIsBlocked(rest, cursor, limit', t);
      var j :| 0 <= j < |rest| && Blocks(rest, j, cursor, limit', t);
      CandidatesPrefixStep(orders, j + 1, cursor, t);
      assert rest[j] == orders[j + 1];
      assert Blocks(orders, j + 1, cursor, limit, t);
    }
  }

  /** A higher cursor selects no more rows. */
  lemma {:induction false} CandidatesShrink(orders: seq<OrderRow>, cursor: nat, t: SqlCast)
    ensures |Candidates(orders, cursor, t)| <= |Candidates(orders, 0, t)|
    decreases |orders|
  {
    if orders != [] {
      CandidatesShrink(orders[1..], cursor, t);
    }
  }

  /** `GetNonFinalOrders` as written: at most `limit` non-final orders whose
      number, cast to `INTEGER`, lies strictly above the cursor. `fails` stands
      for a driver error in either of the two queries; a cursor that does not
      cast, or a pending number the scan reaches that does not, is a query
      error too. */
  function GetNonFinalOrders(orders: seq<OrderRow>, limit: nat, cursor: string, fails: bool): (r: Result<seq<OrderRow>>)
    ensures fails || orders == [] ==> r.Err?
    ensures r.Ok? ==> |orders| > 0 && Cast(AsInteger, StartCursor(orders, cursor)).Some?
    ensures r.Ok? ==> |r.value| <= limit
    ensures r.Ok? ==> forall i :: 0 <= i < |r.value| ==> r.value[i] in orders && !IsFinal(r.value[i].status)
    ensures r.Ok? ==> forall i :: 0 <= i < |r.value| ==>
      Selected(r.value[i], Cast(AsInteger, StartCursor(orders, cursor)).value, AsInteger)
    ensures r.Ok? ==> r.value == Take(Candidates(orders, Cast(AsInteger, StartCursor(orders, cursor)).value, AsInteger), limit)
    ensures !fails && |orders| > 0 && Cast(AsInteger, StartCursor(orders, cursor)).Some? ==>
      r == Scan(orders, Cast(AsInteger, StartCursor(orders, cursor)).value, limit, AsInteger)
    ensures !fails && |orders| > 0 && NonFinalCastable(orders, AsInteger) && Cast(AsInteger, StartCursor(orders, cursor)).Some? ==> r.Ok?
  {
    if fails || orders == [] then Err(Failure)
    else
      match Cast(AsInteger, StartCursor(orders, cursor))
      case None => Err(Failure)
      case Some(from) =>
        CastableScanSucceeds(orders, from, limit, AsInteger);
        Scan(orders, from, limit, AsInteger)
  }

  /** With a usable cursor, the batch query fails exactly when the scan, before
      it holds `limit` rows, reaches a pending number it cannot cast. */
  lemma GetNonFinalOrdersFailsIffBlocked(orders: seq<OrderRow>, limit: nat, cursor: string)
    requires |orders| > 0 && Cast(AsInteger, StartCursor(orders, cursor)).Some?
    ensures var from := Cast(AsInteger, StartCursor(orders, cursor)).value;
      GetNonFinalOrders(orders, limit, cursor, false).Err? <==>
      exists k :: 0 <= k < |orders| && Blocks(orders, k, from, limit, AsInteger)
  {
    var from := Cast(AsInteger, StartCursor(orders, cursor)).value;
    if Scan(orders, from, limit, AsInteger).Err? {
      FailedScanIsBlocked(orders, from, limit, AsInteger);
    } else {
      forall k | 0 <= k < |orders| && Blocks(orders, k, from, limit, AsInteger) ensures false {
        BlockedScanFails(orders, k, from, limit, AsInteger);
      }
    }
  }

  /** One pending order whose number is too large for `INTEGER` makes the batch
      query fail whatever the cursor, once fewer than `limit` pending castable
      rows lie before it in the table. */
  lemma OutOfRangeFailsBatch(orders: seq<OrderRow>, limit: nat, cursor: string, fails: bool, k: int)
    requires 0 <= k < |orders| && !IsFinal(orders[k].status)
    requires |orders[k].number| > 0 && AllDigits(orders[k].number) && Value(orders[k].number) > Int4Max
    requires |Candidates(orders[..k], 0, AsInteger)| < limit
    ensures GetNonFinalOrders(orders, limit, cursor, fails).Err?
  {
    UncastableFailsBatch(orders, limit, cursor, fails, k);
  }

  /** The same for any pending number `INTEGER` cannot take, the empty number
      among them. */
  lemma UncastableFailsBatch(orders: seq<OrderRow>, limit: nat, cursor: string, fails: bool, k: int)
    requires 0 <= k < |orders| && !IsFinal(orders[k].status)
    requires Cast(AsInteger, orders[k].number).None?
    requires |Candidates(orders[..k], 0, AsInteger)| < limit
    ensures GetNonFinalOrders(orders, limit, cursor, fails).Err?
  {
    var from := Cast(AsInteger, StartCursor(orders, cursor));
    if !fails && from.Some? {
      CandidatesShrink(orders[..k], from.value, AsInteger);
      assert Blocks(orders, k, from.value, limit, AsInteger);
      BlockedScanFails(orders, k, from.value, limit, AsInteger);
    }
  }

  /** Once the rows before index `k` hold `limit` selected rows and every
      pending number among them casts, the scan answers with exactly those rows
      and never reads a row from `k` on, however bad its number. */
  lemma {:induction false} ScanStopsAtLimit(orders: seq<OrderRow>, cursor: nat, limit: nat, t: SqlCast, k: int)
    requires 0 <= k <= |orders| && NonFinalCastable(orders[..k], t)
    requires |Candidates(orders[..k], cursor, t)| == limit
    ensures Scan(orders, cursor, limit, t) == Ok(Candidates(orders[..k], cursor, t))
    decreases |orders|
  {
    if limit > 0 {
      assert k > 0 by { assert orders[..0] == []; }
      var rest := orders[1..];
      var pre := rest[..k - 1];
      var head := if Selected(orders[0], cursor, t) then [orders[0]] else [];
      var limit' := if Selected(orders[0], cursor, t) then limit - 1 else limit;
      assert Candidates(orders[..k], cursor, t) == head + Candidates(pre, cursor, t) by {
        CandidatesPrefixStep(orders, k, cursor, t);
      }
      assert NonFinalCastable(pre, t) by {
        forall i | 0 <= i < |pre|
          ensures !IsFinal(pre[i].status) ==> Cast(t, pre[i].number).Some?
        {
          assert pre[i] == orders[..k][i + 1];
        }
      }
      assert IsFinal(orders[0].status) || Cast(t, orders[0].number).Some? by {
        assert orders[..k][0] == orders[0];
      }
      assert |Candidates(pre, cursor, t)| == limit';
      ScanStopsAtLimit(rest, cursor, limit', t, k - 1);
      assert Scan(rest, cursor, limit', t) == Ok(Candidates(pre, cursor, t));
      ScanStep(orders, cursor, limit, t);
      if Selected(orders[0], cursor, t) {
        assert Scan(orders, cursor, limit, t) == Prepend([orders[0]], Ok(Candidates(pre, cursor, t)));
        assert Scan(orders, cursor, limit, t) == Ok(head + Candidates(pre, cursor, t));
      } else {
        assert Scan(orders, cursor, limit, t) == Ok(Candidates(pre, cursor, t));
        assert head + Candidates(pre, cursor, t) == Candidates(pre, cursor, t);
      }
    } else {
      assert Candidates(orders[..k], cursor, t) == [];
    }
  }

  /** The corrected batch query: the numbers are cast to `NUMERIC`, so a number
      of any length compares by its value; a row whose number is not a digit
      string is passed over instead of failing the query (a guard such as
      `number ~ '^[0-9]+$'` ahead of the cast); a cursor that does not cast
      counts as "0"; and when nothing lies beyond the cursor the scan restarts
      from "0". */
  function GetNonFinalOrdersCorrected(orders: seq<OrderRow>, limit: nat, cursor: string, fails: bool): (r: Result<seq<OrderRow>>)
    ensures r.Ok? <==> !fails && orders != []
    ensures r.Ok? ==> |r.value| <= limit
    ensures r.Ok? ==> forall i :: 0 <= i < |r.value| ==> r.value[i] in orders && Selected(r.value[i], 0, AsNumeric)
    ensures r.Ok? && limit > 0 ==> r.value != [] || Candidates(orders, 0, AsNumeric) == []
    // with a usable cursor the batch is the first `limit` rows beyond it, or,
    // when nothing lies beyond it, the first `limit` rows from the beginning
    ensures !fails && orders != [] && Cast(AsNumeric, StartCursor(orders, cursor)).Some? ==>
      var beyond := Candidates(orders, Cast(AsNumeric, StartCursor(orders, cursor)).value, AsNumeric);
      r == Ok(if beyond != [] then Take(beyond, limit) else Take(Candidates(orders, 0, AsNumeric), limit))
  {
    if fails || orders == [] then Err(Failure)
    else
      var from := match Cast(AsNumeric, StartCursor(orders, cursor)) case Some(v) => v case None => 0;
      var beyond := Candidates(orders, from, AsNumeric);
      if beyond != [] then Ok(Take(beyond, limit))
      else Ok(Take(Candidates(orders, 0, AsNumeric), limit))
  }

  /** Cast `u` accepts every number cast `t` accepts, with the same value. */
  ghost predicate Widens(t: SqlCast, u: SqlCast)
  {
    forall s :: Cast(t, s).Some? ==> Cast(u, s) == Cast(t, s)
  }

  /** One step of `ScanMatchesWider`: the first row is selected under `t`
      exactly when it is under `u`, and the scans continue alike. */
  lemma WiderStep(orders: seq<OrderRow>, cursor: nat, limit: nat, t: SqlCast, u: SqlCast)
    requires Widens(t, u) && limit > 0 && orders != []
    requires Scan(orders, cursor, limit, t).Ok?
    ensures var limit' := if Selected(orders[0], cursor, t) then limit - 1 else limit;
      Scan(orders[1..], cursor, limit', t).Ok? &&
      (Scan(orders[1..], cursor, limit', t) == Scan(orders[1..], cursor, limit', u) ==>
       Scan(orders, cursor, limit, t) == Scan(orders, cursor, limit, u))
  {
    var head := orders[0];
    assert IsFinal(head.status) || Cast(t, head.number).Some?;
    assert Selected(head, cursor, t) == Selected(head, cursor, u) by {
      assert Cast(t, head.number).Some? ==> Cast(u, head.number) == Cast(t, head.number);
    }
    ScanStep(orders, cursor, limit, t);
    ScanStep(orders, cursor, limit, u);
  }

  /** A scan that cast `t` does not stop reads the same rows under any wider
      cast `u`: each number it reaches casts to the same value either way. */
  lemma {:induction false} ScanMatchesWider(orders: seq<OrderRow>, cursor: nat, limit: nat, t: SqlCast, u: SqlCast)
    requires Widens(t, u)
    requires Scan(orders, cursor, limit, t).Ok?
    ensures Scan(orders, cursor, limit, t) == Scan(orders, cursor, limit, u)
    decreases |orders|
  {
    if limit == 0 || orders == [] {
      assert Scan(orders, cursor, limit, t) == Ok([]) == Scan(orders, cursor, limit, u);
    } else {
      WiderStep(orders, cursor, limit, t, u);
      ScanMatchesWider(orders[1..], cursor, if Selected(orders[0], cursor, t) then limit - 1 else limit, t, u);
    }
  }

  /** While the query as written answers with a non-empty batch, the corrected
      query answers with the same batch: the corrections only change what
      happens at a number `INTEGER` cannot take and at the end of the table. */
  lemma CorrectedAgreesWhileProgressing(orders: seq<OrderRow>, limit: nat, cursor: string, fails: bool)
    requires GetNonFinalOrders(orders, limit, cursor, fails).Ok?
    requires GetNonFinalOrders(orders, limit, cursor, fails).value != []
    ensures GetNonFinalOrdersCorrected(orders, limit, cursor, fails) == GetNonFinalOrders(orders, limit, cursor, fails)
  {
    var from := Cast(AsInteger, StartCursor(orders, cursor)).value;
    assert Cast(AsNumeric, StartCursor(orders, cursor)) == Some(from);
    assert Widens(AsInteger, AsNumeric);
    ScanMatchesWider(orders, from, limit, AsInteger, AsNumeric);
    assert GetNonFinalOrders(orders, limit, cursor, fails).value == Take(Candidates(orders, from, AsNumeric), limit);
  }

  /** With the corrected query a pending order with a positive number keeps
      every batch non-empty, whatever the cursor and whatever else the table
      holds. */
  lemma WrappingMakesProgress(orders: seq<OrderRow>, limit: nat, cursor: string, k: int)
    requires 0 <= k < |orders| && !IsFinal(orders[k].status)
    requires AllDigits(orders[k].number) && Value(orders[k].number) > 0
    requires limit > 0
    ensures GetNonFinalOrdersCorrected(orders, limit, cursor, false).Ok?
    ensures GetNonFinalOrdersCorrected(orders, limit, cursor, false).value != []
  {
    assert Selected(orders[k], 0, AsNumeric);
    assert orders[k] in Candidates(orders, 0, AsNumeric);
  }

  // ---------------------------------------------------------------------------
  // The status update with its conditional credit

  /** The step of the `UpdateAccrual` transaction that fails, if any. */
  datatype TxFault = NoFault | BeginFails | UpdateFails | OwnerQueryFails | CreditInsertFails

  /** `UPDATE orders SET status = status WHERE number = number`. */
  function SetStatus(orders: seq<OrderRow>, number: string, status: string): (r: seq<OrderRow>)
    ensures |r| == |orders|
    ensures forall i :: 0 <= i < |r| ==> r[i].userId == orders[i].userId && r[i].number == orders[i].number
    ensures forall i :: 0 <= i < |r| ==> r[i].status == if orders[i].number == number then status else orders[i].status
  {
    if orders == [] then []
    else
      [if orders[0].number == number then orders[0].(status := status) else orders[0]] + SetStatus(orders[1..], number, status)
  }

  /** Two versions of the table hold the same claims: row by row the same
      owner and number, whatever the statuses. */
  predicate SameClaims(before: seq<OrderRow>, after: seq<OrderRow>)
  {
    |after| == |before|
    && forall i :: 0 <= i < |after| ==> after[i].userId == before[i].userId && after[i].number == before[i].number
  }

  /** Changing statuses cannot give a number a second owner. */
  lemma SameClaimsKeepUniqueOwners(before: seq<OrderRow>, after: seq<OrderRow>)
    requires SameClaims(before, after)
    ensures UniqueOwners(before) <==> UniqueOwners(after)
  {
  }

  /** `SELECT user_id FROM orders WHERE number = number`, first row. */
  function OwnerOf(orders: seq<OrderRow>, number: string): (owner: Option<int>)
    ensures owner.Some? ==> exists i :: 0 <= i < |orders| && orders[i].number == number && orders[i].userId == owner.value
    ensures owner.None? <==> forall i :: 0 <= i < |orders| ==> orders[i].number != number
  {
    if orders == [] then None
    else if orders[0].number == number then Some(orders[0].userId)
    else
      var owner := OwnerOf(orders[1..], number);
      assert forall i :: 1 <= i < |orders| ==> orders[i] == orders[1..][i - 1];
      owner
  }

  /** The update credits the owner exactly for a processed order with a positive accrual. */
  predicate Credits(status: string, accrual: real)
  {
    status == StatusProcessed && accrual > 0.0
  }

  /** `UpdateAccrual`: set the status of the order and, for a processed order
      with a positive accrual, append one credit for its owner, all in one
      transaction. An error anywhere leaves no trace. The previous status is
      not consulted. */
  function UpdateAccrual(s: Store, number: string, accrual: real, status: string, fault: TxFault): (r: Result<Store>)
    ensures r.Err? <==>
      fault == BeginFails || fault == UpdateFails
      || (Credits(status, accrual) && (fault == OwnerQueryFails || fault == CreditInsertFails || OwnerOf(s.orders, number).None?))
    ensures r.Ok? ==> r.value.orders == SetStatus(s.orders, number, status)
    ensures r.Ok? ==> SameClaims(s.orders, r.value.orders)
    ensures r.Ok? ==> r.value.withdrawals == s.withdrawals
    ensures r.Ok? && !Credits(status, accrual) ==> r.value.points == s.points
    ensures r.Ok? && Credits(status, accrual) ==>
      OwnerOf(s.orders, number).Some? && r.value.points == s.points + [PointRow(OwnerOf(s.orders, number).value, accrual, 0.0)]
  {
    if fault == BeginFails || fault == UpdateFails then Err(Failure)
    else
      var orders := SetStatus(s.orders, number, status);
      if !Credits(status, accrual) then Ok(Store(orders, s.points, s.withdrawals))
      else if fault == OwnerQueryFails then Err(Failure)
      else
        // the owner is read inside the transaction, after the status update
        SetStatusKeepsOwners(s.orders, number, status);
        match OwnerOf(orders, number)
        case None => Err(Failure)
        case Some(owner) =>
          if fault == CreditInsertFails then Err(Failure)
          else Ok(Store(orders, s.points + [PointRow(owner, accrual, 0.0)], s.withdrawals))
  }

  /** The status update changes no owner and no number. */
  lemma SetStatusKeepsOwners(orders: seq<OrderRow>, number: string, status: string)
    ensures OwnerOf(SetStatus(orders, number, status), number) == OwnerOf(orders, number)
  {
    if orders != [] {
      SetStatusKeepsOwners(orders[1..], number, status);
    }
  }

  /** A credit never touches the spent side: every user's spent total stays,
      and only the owner's accrued total grows, by exactly the accrual. */
  lemma UpdateAccrualLedger(s: Store, number: string, accrual: real, status: string, fault: TxFault)
    requires UpdateAccrual(s, number, accrual, status, fault).Ok?
    ensures var after := UpdateAccrual(s, number, accrual, status, fault).value;
      forall u :: Spent(after.points, u) == Spent(s.points, u)
        && Accrued(after.points, u) == Accrued(s.points, u)
             + (if Credits(status, accrual) && OwnerOf(s.orders, number) == Some(u) then accrual else 0.0)
  {
    var after := UpdateAccrual(s, number, accrual, status, fault).value;
    if Credits(status, accrual) {
      SetStatusKeepsOwners(s.orders, number, status);
      var row := PointRow(OwnerOf(s.orders, number).value, accrual, 0.0);
      assert after.points == s.points + [row];
      forall u ensures Spent(after.points, u) == Spent(s.points, u)
        && Accrued(after.points, u) == Accrued(s.points, u) + (if OwnerOf(s.orders, number) == Some(u) then accrual else 0.0)
      {
        PointsAppend(s.points, row, u);
      }
    }
  }

  /** Hence Σspent = Σwithdrawn survives every update. */
  lemma UpdateAccrualKeepsLedger(s: Store, number: string, accrual: real, status: string, fault: TxFault)
    requires SpentMatchesWithdrawals(s)
    requires UpdateAccrual(s, number, accrual, status, fault).Ok?
    ensures SpentMatchesWithdrawals(UpdateAccrual(s, number, accrual, status, fault).value)
  {
    UpdateAccrualLedger(s, number, accrual, status, fault);
  }

  /** Without a guard on the previous status, confirming the same processed
      order twice credits its owner twice. */
  lemma UpdateAccrualTwiceCreditsTwice(s: Store, number: string, accrual: real, user: int)
    requires OwnerOf(s.orders, number) == Some(user)
    requires accrual > 0.0
    ensures var once := UpdateAccrual(s, number, accrual, StatusProcessed, NoFault);
      once.Ok? &&
      var twice := UpdateAccrual(once.value, number, accrual, StatusProcessed, NoFault);
      twice.Ok? && Accrued(twice.value.points, user) == Accrued(s.points, user) + 2.0 * accrual
  {
    var r1 := UpdateAccrual(s, number, accrual, StatusProcessed, NoFault);
    assert r1.Ok?;
    var once := r1.value;
    assert once.orders == SetStatus(s.orders, number, StatusProcessed);
    SetStatusKeepsOwners(s.orders, number, StatusProcessed);
    assert OwnerOf(once.orders, number) == Some(user);
    assert once.points == s.points + [PointRow(user, accrual, 0.0)];
    var r2 := UpdateAccrual(once, number, accrual, StatusProcessed, NoFault);
    assert r2.Ok?;
    var twice := r2.value;
    assert twice.points == once.points + [PointRow(user, accrual, 0.0)];
    assert once.points[..|s.points|] == s.points;
    assert twice.points[..|once.points|] == once.points;
    assert Accrued(once.points, user) == Accrued(s.points, user) + accrual;
  }
}

=== FILE: accrual_scenarios.dfy ===
/**
 * Concrete runs of the accrual engine. The cursor that a 429 parks on an
 * order is reset only when it equals the largest stored number, and the batch
 * filter is strictly "above the cursor": once every order above it is final,
 * the parked order and everything below it are never polled again. The
 * corrected batch query polls it in the next cycle. A pending number too large
 * for `INTEGER`, or the empty number that the checksum accepts, makes the
 * batch query as written fail on every cycle.
 */
module AccrualScenarios {

  import opened Domain
  import opened Decimal
  import opened RateLimitHint
  import opened AccrualPersistence
  import opened AccrualService
  import V = Validation
  import OS = OrderService
  import OH = OrderHandler

  // ---------------------------------------------------------------------------
  // Cursor starvation

  /** Two uploads of user 1; both numbers pass the Luhn check. */
  const Uploaded: Store := Store([OrderRow(1, "18", StatusNew), OrderRow(1, "26", StatusNew)], [], [])

  /** The same table once "26" is confirmed. */
  const Starved: Store := Store([OrderRow(1, "18", StatusNew), OrderRow(1, "26", StatusProcessed)], [], [])

  /** The engine after a 429 on "18" that allowed 20 requests. */
  const Parked: Engine := Engine(20, "18")

  /** The accrual service is busy for "18", allowing 20 requests a minute,
      and confirms "26" without points. */
  predicate BusyOnce(svc: string -> Reply)
  {
    && svc("18") == Reply(HttpTooManyRequests, [HintLine(20)], None)
    && svc("26") == Reply(HttpOK, [], Some(AccrualResponse("26", StatusProcessed, 0.0)))
  }

  /** The batch filter over a two-row table. */
  lemma CandidatesOfTwo(a: OrderRow, b: OrderRow, cursor: nat, t: SqlCast)
    ensures Candidates([a, b], cursor, t) ==
      (if Selected(a, cursor, t) then [a] else []) + (if Selected(b, cursor, t) then [b] else [])
  {
    assert [a, b][1..] == [b];
    assert [b][1..] == [];
    assert Candidates([b], cursor, t) == (if Selected(b, cursor, t) then [b] else []) + Candidates([], cursor, t);
  }

  lemma NumbersOfStarvation(t: SqlCast)
    ensures LastOrderNumber(Uploaded.orders) == "26" && LastOrderNumber(Starved.orders) == "26"
    ensures Cast(t, "0") == Some(0) && Cast(t, "18") == Some(18) && Cast(t, "26") == Some(26)
  {
    assert Value("0") == 0 by { assert "0"[..0] == ""; }
    assert Value("18") == 18 by { assert "18"[..1] == "1"; assert "1"[..0] == ""; }
    assert Value("26") == 26 by { assert "26"[..1] == "2"; assert "2"[..0] == ""; }
    assert LexLe("18", "26");
    assert !LexLe("26", "18");
  }

  /** From the initial cursor, the batch is the whole table. */
  lemma FirstBatch()
    ensures GetNonFinalOrders(Uploaded.orders, 20, "0", false) == Ok(Uploaded.orders)
  {
    NumbersOfStarvation(AsInteger);
    var o := Uploaded.orders;
    CandidatesOfTwo(o[0], o[1], 0, AsInteger);
    assert StartCursor(o, "0") == "0";
    assert NonFinalCastable(o, AsInteger);
    assert Selected(o[0], 0, AsInteger) && Selected(o[1], 0, AsInteger);
    assert Candidates(o, 0, AsInteger) == o;
    assert Take(o, 20) == o;
  }

  /** The lookup of "18" is answered with a 429 that allows 20 requests. */
  lemma FirstLookupParks(svc: string -> Reply, fault: TxFault)
    requires BusyOnce(svc)
    ensures ProcessOrder(Uploaded, NewAccrual(), "18", svc("18"), fault) == Step(Uploaded, Parked, true)
  {
    RateLimitHintParks(NewAccrual(), "18", [], 20, []);
    assert [] + [HintLine(20)] + [] == [HintLine(20)];
  }

  /** The first cycle fetches both orders and stops at the 429 on "18". */
  lemma FirstCycleParksCursor(svc: string -> Reply, fault: string -> TxFault)
    requires BusyOnce(svc)
    ensures InitRequest(Uploaded, NewAccrual(), false, svc, fault) == Cycle(Uploaded, Parked, ["18"], true)
  {
    FirstBatch();
    FirstLookupParks(svc, fault("18"));
    var o := Uploaded.orders;
    assert o[0].number == "18";
    assert ProcessBatch(Uploaded, NewAccrual(), o, svc, fault) == Cycle(Uploaded, Parked, ["18"], true);
  }

  /** With the cursor on "18", the batch is "26" alone. */
  lemma SecondBatch()
    ensures GetNonFinalOrders(Uploaded.orders, 20, "18", false) == Ok([OrderRow(1, "26", StatusNew)])
  {
    NumbersOfStarvation(AsInteger);
    var o := Uploaded.orders;
    CandidatesOfTwo(o[0], o[1], 18, AsInteger);
    assert StartCursor(o, "18") == "18";
    assert NonFinalCastable(o, AsInteger);
    assert Take([o[1]], 20) == [o[1]];
    assert !Selected(o[0], 18, AsInteger);
    assert Selected(o[1], 18, AsInteger);
    assert Candidates(o, 18, AsInteger) == [o[1]];
    assert Cast(AsInteger, StartCursor(o, "18")) == Some(18);
  }

  /** Confirming "26" without points only sets its status. */
  lemma SecondBatchConfirmed(batch: seq<OrderRow>, svc: string -> Reply, fault: string -> TxFault)
    requires batch == [OrderRow(1, "26", StatusNew)]
    requires BusyOnce(svc) && fault("26") == NoFault
    ensures ProcessBatch(Uploaded, Parked, batch, svc, fault) == Cycle(Starved, Parked, ["26"], false)
  {
    var o := Uploaded.orders;
    assert batch[1..] == [];
    assert SetStatus(o, "26", StatusProcessed) == Starved.orders by {
      assert o[1..] == [o[1]];
      assert [o[1]][1..] == [];
    }
    assert UpdateAccrual(Uploaded, "26", 0.0, StatusProcessed, NoFault) == Ok(Starved);
    assert ProcessOrder(Uploaded, Parked, "26", svc("26"), NoFault) == Step(Starved, Parked, false);
    assert ["26"] + [] == ["26"];
  }

  /** The second cycle fetches only "26", above the cursor, and confirms it. */
  lemma SecondCycleConfirmsAbove(svc: string -> Reply, fault: string -> TxFault)
    requires BusyOnce(svc) && fault("26") == NoFault
    ensures InitRequest(Uploaded, Parked, false, svc, fault) == Cycle(Starved, Parked, ["26"], false)
  {
    SecondBatch();
    SecondBatchConfirmed([OrderRow(1, "26", StatusNew)], svc, fault);
  }

  /** From a fresh engine, two cycles reach the starved state: the 429 on
      "18" parks the cursor there, and the next cycle confirms "26". */
  lemma StarvationReached(svc: string -> Reply, fault: string -> TxFault)
    requires BusyOnce(svc) && fault("26") == NoFault
    ensures Cycles(Uploaded, NewAccrual(), 2, false, svc, fault) == Cycle(Starved, Parked, ["18"] + ["26"], false)
  {
    var first := Cycle(Uploaded, Parked, ["18"], true);
    var second := Cycle(Starved, Parked, ["26"], false);
    assert InitRequest(Uploaded, NewAccrual(), false, svc, fault) == first by {
      FirstCycleParksCursor(svc, fault);
    }
    assert InitRequest(first.store, first.engine, false, svc, fault) == second by {
      SecondCycleConfirmsAbove(svc, fault);
    }
    TwoCycles(Uploaded, NewAccrual(), first, second, svc, fault);
  }

  /** In the starved state a cycle fetches an empty batch, whatever the
      accrual service would answer. */
  lemma StarvedCycleIsIdle(svc: string -> Reply, fault: string -> TxFault)
    ensures InitRequest(Starved, Parked, false, svc, fault) == Cycle(Starved, Parked, [], false)
  {
    NumbersOfStarvation(AsInteger);
    CandidatesOfTwo(OrderRow(1, "18", StatusNew), OrderRow(1, "26", StatusProcessed), 18, AsInteger);
    assert StartCursor(Starved.orders, "18") == "18";
    assert GetNonFinalOrders(Starved.orders, 20, "18", false) == Ok([]);
  }

  /** Hence "18" stays NEW for good: no number of further cycles looks it up. */
  lemma StarvationIsPermanent(n: nat, svc: string -> Reply, fault: string -> TxFault)
    ensures Cycles(Starved, Parked, n, false, svc, fault) == Cycle(Starved, Parked, [], false)
  {
    StarvedCycleIsIdle(svc, fault);
    IdleCycleRepeats(Starved, Parked, n, svc, fault);
  }

  /** The corrected batch query polls the starved order in the next cycle. */
  lemma WrappingPollsStarvedOrder(svc: string -> Reply, fault: string -> TxFault)
    ensures InitRequestCorrected(Starved, Parked, false, svc, fault).looked == ["18"]
  {
    NumbersOfStarvation(AsNumeric);
    CandidatesOfTwo(OrderRow(1, "18", StatusNew), OrderRow(1, "26", StatusProcessed), 18, AsNumeric);
    CandidatesOfTwo(OrderRow(1, "18", StatusNew), OrderRow(1, "26", StatusProcessed), 0, AsNumeric);
    var o := Starved.orders;
    assert StartCursor(o, "18") == "18";
    assert Candidates(o, 18, AsNumeric) == [];
    assert Candidates(o, 0, AsNumeric) == [o[0]];
    assert Take([o[0]], 20) == [o[0]];
    assert GetNonFinalOrdersCorrected(o, 20, "18", false) == Ok([OrderRow(1, "18", StatusNew)]);
  }

  // ---------------------------------------------------------------------------
  // A confirmed order is credited once

  /** An upload of user 1 that passes the Luhn check. */
  const Number: string := "34"

  const Placed: Store := Store([OrderRow(1, Number, StatusNew)], [], [])

  /** The accrual service confirms `Number` with 500 points. */
  predicate Confirms(svc: string -> Reply)
  {
    svc(Number) == Reply(HttpOK, [], Some(AccrualResponse(Number, StatusProcessed, 500.0)))
  }

  lemma NumberValue(t: SqlCast)
    ensures Cast(t, Number) == Some(34)
  {
    assert Value("34") == 34 by { assert "34"[..1] == "3"; assert "3"[..0] == ""; }
  }

  /** The pieces of the batch query over the single row of `Placed`. */
  lemma PlacedFacts(t: SqlCast)
    ensures |Placed.orders| > 0 && NonFinalCastable(Placed.orders, t)
    ensures Cast(t, StartCursor(Placed.orders, "0")) == Some(0)
    ensures Candidates(Placed.orders, 0, t) == Placed.orders && Take(Placed.orders, 20) == Placed.orders
  {
    var o := Placed.orders;
    NumberValue(t);
    assert Cast(t, "0") == Some(0) by { assert "0"[..0] == ""; }
    assert LastOrderNumber(o) == Number;
    assert StartCursor(o, "0") == "0";
    assert NonFinalCastable(o, t);
    assert Selected(o[0], 0, t);
    assert o[1..] == [];
  }

  /** The single row of `Placed` is fetched by a fresh engine. */
  lemma PlacedBatch()
    ensures GetNonFinalOrders(Placed.orders, 20, "0", false) == Ok(Placed.orders)
  {
    PlacedFacts(AsInteger);
  }

  lemma PlacedBatchCorrected()
    ensures GetNonFinalOrdersCorrected(Placed.orders, 20, "0", false) == Ok(Placed.orders)
  {
    PlacedFacts(AsNumeric);
  }

  /** The pieces of the batch query once the row is confirmed. */
  lemma DoneFacts(done: seq<OrderRow>, t: SqlCast)
    requires done == [OrderRow(1, Number, StatusProcessed)]
    ensures |done| > 0 && NonFinalCastable(done, t)
    ensures Cast(t, StartCursor(done, "0")) == Some(0)
    ensures Candidates(done, 0, t) == [] && Take([], 20) == []
  {
    assert Cast(t, "0") == Some(0) by { assert "0"[..0] == ""; }
    assert LastOrderNumber(done) == Number;
    assert StartCursor(done, "0") == "0";
    assert !Selected(done[0], 0, t);
    assert done[1..] == [];
  }

  /** Once confirmed, the row is fetched by no batch query. */
  lemma DoneBatch(done: seq<OrderRow>)
    requires done == [OrderRow(1, Number, StatusProcessed)]
    ensures GetNonFinalOrders(done, 20, "0", false) == Ok([])
  {
    DoneFacts(done, AsInteger);
  }

  lemma DoneBatchCorrected(done: seq<OrderRow>)
    requires done == [OrderRow(1, Number, StatusProcessed)]
    ensures GetNonFinalOrdersCorrected(done, 20, "0", false) == Ok([])
  {
    DoneFacts(done, AsNumeric);
  }

  /** Confirming the fetched row sets its status and credits its owner. */
  lemma PlacedConfirmed(fetched: seq<OrderRow>, svc: string -> Reply, fault: string -> TxFault)
    requires fetched == Placed.orders
    requires Confirms(svc) && fault(Number) == NoFault
    ensures ProcessBatch(Placed, NewAccrual(), fetched, svc, fault)
         == Cycle(Store([OrderRow(1, Number, StatusProcessed)], [PointRow(1, 500.0, 0.0)], []), NewAccrual(), [Number], false)
  {
    var o := Placed.orders;
    assert o[1..] == [];
    assert SetStatus(o, Number, StatusProcessed) == [OrderRow(1, Number, StatusProcessed)];
    assert OwnerOf(o, Number) == Some(1);
    var done := Store([OrderRow(1, Number, StatusProcessed)], [PointRow(1, 500.0, 0.0)], []);
    assert OwnerOf(SetStatus(o, Number, StatusProcessed), Number) == Some(1);
    assert Placed.points + [PointRow(1, 500.0, 0.0)] == done.points;
    assert UpdateAccrual(Placed, Number, 500.0, StatusProcessed, NoFault) == Ok(done);
    assert ProcessOrder(Placed, NewAccrual(), Number, svc(Number), NoFault) == Step(done, NewAccrual(), false);
    assert [Number] + [] == [Number];
  }

  /** Two cycles over a fresh upload: the first confirms it and credits 500
      points to its owner, the second finds nothing left to poll, so the
      credit happens once even though `UpdateAccrual` itself has no guard. */
  lemma ConfirmedOrderCreditedOnce(corrected: bool, svc: string -> Reply, fault: string -> TxFault)
    requires Confirms(svc) && fault(Number) == NoFault
    ensures var c := Cycles(Placed, NewAccrual(), 2, corrected, svc, fault);
      && c.looked == [Number]
      && c.store.orders == [OrderRow(1, Number, StatusProcessed)]
      && c.store.points == [PointRow(1, 500.0, 0.0)]
      && Accrued(c.store.points, 1) - Spent(c.store.points, 1) == 500.0
  {
    var done := Store([OrderRow(1, Number, StatusProcessed)], [PointRow(1, 500.0, 0.0)], []);
    PlacedBatch();
    PlacedBatchCorrected();
    PlacedConfirmed(Placed.orders, svc, fault);
    DoneBatch(done.orders);
    DoneBatchCorrected(done.orders);
    var c1 := if corrected then InitRequestCorrected(Placed, NewAccrual(), false, svc, fault)
              else InitRequest(Placed, NewAccrual(), false, svc, fault);
    assert c1 == Cycle(done, NewAccrual(), [Number], false);
    var c2 := if corrected then InitRequestCorrected(done, NewAccrual(), false, svc, fault)
              else InitRequest(done, NewAccrual(), false, svc, fault);
    assert c2 == Cycle(done, NewAccrual(), [], false);
    var last := Cycles(done, NewAccrual(), 0, corrected, svc, fault);
    var rest := Cycles(done, NewAccrual(), 1, corrected, svc, fault);
    assert rest == Cycle(last.store, last.engine, [] + last.looked, last.stopped);
    assert rest == Cycle(done, NewAccrual(), [], false);
    assert Cycles(Placed, NewAccrual(), 2, corrected, svc, fault) == Cycle(done, NewAccrual(), [Number] + [], false);
    assert done.points[..0] == [];
  }

  // ---------------------------------------------------------------------------
  // A number too large for `INTEGER`

  /** The number the order handler's test uploads and expects to be accepted. */
  const LongNumber: string := "12345678903"

  /** The table after that upload. */
  const LongPlaced: Store := Store([OrderRow(1, LongNumber, StatusNew)], [], [])

  lemma LongNumberValue()
    ensures |LongNumber| > 0 && AllDigits(LongNumber) && Value(LongNumber) == 12345678903
  {
    assert LongNumber[..10] == "1234567890";
    assert "1234567890"[..9] == "123456789";
    assert "123456789"[..8] == "12345678";
    assert "12345678"[..7] == "1234567";
    assert "1234567"[..6] == "123456";
    assert "123456"[..5] == "12345";
    assert "12345"[..4] == "1234";
    assert "1234"[..3] == "123";
    assert "123"[..2] == "12";
    assert "12"[..1] == "1";
    assert "1"[..0] == "";
  }

  /** Once that order is stored, the engine as written looks up nothing at
      all, in any number of cycles, whatever the accrual service answers. */
  lemma LongNumberStallsEngine(e: Engine, n: nat, svc: string -> Reply, fault: string -> TxFault)
    ensures Cycles(LongPlaced, e, n, false, svc, fault) == Cycle(LongPlaced, e, [], false)
  {
    LongNumberValue();
    assert LongPlaced.orders[..0] == [];
    OutOfRangeStallsEngine(LongPlaced, e, 0, n, svc, fault);
  }

  /** The corrected engine looks that order up in its first cycle, and
      nothing else. */
  lemma CorrectedEnginePollsLongNumber(svc: string -> Reply, fault: string -> TxFault)
    ensures var c := InitRequestCorrected(LongPlaced, NewAccrual(), false, svc, fault);
      c.looked != [] && forall i :: 0 <= i < |c.looked| ==> c.looked[i] == LongNumber
  {
    assert Value(LongNumber) > 0 by { LongNumberValue(); }
    WrappingCyclePolls(LongPlaced, NewAccrual(), 0, svc, fault);
    InitRequestCorrectedLooksUpPending(LongPlaced, NewAccrual(), false, svc, fault);
  }

  /** The table when "18" was uploaded before the long number. */
  const ShortFirst: seq<OrderRow> := [OrderRow(1, "18", StatusNew), OrderRow(1, LongNumber, StatusNew)]

  /** The query stops reading once it holds `limit` rows, so with limit 1 it
      answers "18" without reaching the long number, while with limit 2 it
      reaches it and fails. */
  lemma LongNumberBehindFullBatch()
    ensures GetNonFinalOrders(ShortFirst, 1, "0", false) == Ok([OrderRow(1, "18", StatusNew)])
    ensures GetNonFinalOrders(ShortFirst, 2, "0", false).Err?
  {
    NumbersOfStarvation(AsInteger);
    LongNumberValue();
    var pre := ShortFirst[..1];
    assert pre == [OrderRow(1, "18", StatusNew)];
    assert pre[1..] == [];
    assert Candidates(pre, 0, AsInteger) == [OrderRow(1, "18", StatusNew)];
    ScanStopsAtLimit(ShortFirst, 0, 1, AsInteger, 1);
    UncastableFailsBatch(ShortFirst, 2, "0", false, 1);
  }

  // ---------------------------------------------------------------------------
  // The empty order number

  /** The checksum accepts the empty body, so a user who uploads it gets 202
      and a row with the number "". */
  lemma EmptyNumberStored()
    ensures OH.UploadOrder(Some(""), Some(1), [], OS.Healthy) == OH.Upload(HttpAccepted, [OrderRow(1, "", StatusNew)],
      [OS.ExistsForUserCall, OS.ClaimedByAnotherCall, OS.AddOrderCall])
  {
    V.EmptyAccepted();
  }

  /** The table once the same user has also uploaded "18". */
  const EmptyFirst: Store := Store([OrderRow(1, "", StatusNew), OrderRow(1, "18", StatusNew)], [], [])

  lemma EmptyFirstStored()
    ensures var up := OH.UploadOrder(Some("18"), Some(1), [OrderRow(1, "", StatusNew)], OS.Healthy);
      up.code == HttpAccepted && up.orders == EmptyFirst.orders
  {
    var s := "18";
    assert V.LuhnSumFrom(s, 1) == 8;
    assert V.LuhnSumFrom(s, 0) == 10;
    assert [OrderRow(1, "", StatusNew)][0].number != "18";
  }

  /** From then on the engine as written looks up nothing, not even "18",
      in any number of cycles, whatever the cursor and the accrual service. */
  lemma EmptyNumberStallsEngine(e: Engine, n: nat, svc: string -> Reply, fault: string -> TxFault)
    ensures Cycles(EmptyFirst, e, n, false, svc, fault) == Cycle(EmptyFirst, e, [], false)
  {
    assert EmptyFirst.orders[..0] == [];
    UncastableStallsEngine(EmptyFirst, e, 0, n, svc, fault);
  }

  /** The corrected engine passes over the empty number and looks up "18",
      and nothing else, in its next cycle, whatever the cursor. */
  lemma CorrectedEnginePollsPastEmpty(e: Engine, svc: string -> Reply, fault: string -> TxFault)
    requires e.limit > 0
    ensures var c := InitRequestCorrected(EmptyFirst, e, false, svc, fault);
      c.looked != [] && forall i :: 0 <= i < |c.looked| ==> c.looked[i] == "18"
  {
    NumbersOfStarvation(AsNumeric);
    WrappingCyclePolls(EmptyFirst, e, 1, svc, fault);
    InitRequestCorrectedLooksUpPending(EmptyFirst, e, false, svc, fault);
    var c := InitRequestCorrected(EmptyFirst, e, false, svc, fault);
    forall i | 0 <= i < |c.looked|
      ensures c.looked[i] == "18"
    {
      assert PendingIn(EmptyFirst.orders, c.looked[i]);
      assert c.looked[i] != "";
    }
  }
}

=== FILE: accrual_service.dfy ===
/**
 * The accrual engine: one reconciliation cycle fetches a batch of non-final
 * orders, asks the accrual service about each in turn and records what it
 * answers. A 429 reply cancels the rest of the batch and may move the engine's
 * limit and cursor for the next cycle.
 *
 * The accrual service is a parameter `svc` from order number to reply, and the
 * outcome of each `UpdateAccrual` transaction a parameter `fault` from order
 * number to the failing step. The goroutines, the channel, the context and the
 * sixty-second sleep only serialise this fold and are not modelled.
 */
module AccrualService {

  import opened Domain
  import opened Decimal
  import opened RateLimitHint
  import opened AccrualPersistence

  const InitLimit: nat := 20
  const InitCursor: string := "0"

  /** The state the engine keeps between cycles. */
  datatype Engine = Engine(limit: nat, cursor: string)

  /** A fresh engine asks for a non-empty batch from a cursor that casts to 0,
      below every positive order number. */
  function NewAccrual(): (e: Engine)
    ensures e.limit > 0
    ensures Cast(AsInteger, e.cursor) == Some(0)
  {
    assert InitCursor[..0] == [];
    Engine(InitLimit, InitCursor)
  }

  /** A fresh engine starts at the beginning of the table: its first batch is
      the first twenty pending orders with a positive number. */
  lemma NewAccrualStartsAtBeginning(orders: seq<OrderRow>)
    requires |orders| > 0 && NonFinalCastable(orders, AsInteger)
    ensures GetNonFinalOrders(orders, NewAccrual().limit, NewAccrual().cursor, false) == Ok(Take(Candidates(orders, 0, AsInteger), 20))
  {
    var from := StartCursor(orders, InitCursor);
    assert from == "0";
    assert Value("0") == 0 by {
      assert "0"[..0] == [];
    }
    assert Cast(AsInteger, from) == Some(0);
  }

  /** The JSON body of a non-429, non-204 reply. */
  datatype AccrualResponse = AccrualResponse(order: string, status: string, accrual: real)

  /** What the accrual service answered for one order: a transport error, or a
      status code with the body split into lines and the body decoded as JSON
      (`None` when it does not decode). */
  datatype Reply = TransportError | Reply(statusCode: int, body: seq<string>, decoded: Option<AccrualResponse>)

  predicate RateLimited(reply: Reply)
  {
    reply.Reply? && reply.statusCode == HttpTooManyRequests
  }

  /** The outcome of `getAccrualData`: the decoded answer if there is one to
      record, whether the batch was cancelled, and the engine afterwards. */
  datatype Fetched = Fetched(data: Option<AccrualResponse>, cancelled: bool, engine: Engine)

  /** `getAccrualData`: classify the reply for `number`. */
  function GetAccrualData(e: Engine, number: string, reply: Reply): (f: Fetched)
    // only a 429 cancels, and it never yields data
    ensures f.cancelled <==> RateLimited(reply)
    ensures f.cancelled ==> f.data.None?
    // a usable hint moves the limit and parks the cursor on this order
    ensures RateLimited(reply) && ExtractMaxRequests(reply.body).Ok? ==>
      f.engine == Engine(ExtractMaxRequests(reply.body).value, number)
    ensures !(RateLimited(reply) && ExtractMaxRequests(reply.body).Ok?) ==> f.engine == e
    // a 204, a transport error or an undecodable body yield nothing
    ensures reply.TransportError? || (reply.Reply? && (reply.statusCode == HttpNoContent || reply.decoded.None?)) ==>
      f.data.None?
    // any other code hands on the decoded body as it is
    ensures reply.Reply? && reply.statusCode != HttpTooManyRequests && reply.statusCode != HttpNoContent ==>
      f.data == reply.decoded
  {
    match reply
    case TransportError => Fetched(None, false, e)
    case Reply(code, body, decoded) =>
      if code == HttpTooManyRequests then
        match ExtractMaxRequests(body)
        case Err(_) => Fetched(None, true, e)
        case Ok(n) => Fetched(None, true, Engine(n, number))
      else if code == HttpNoContent then Fetched(None, false, e)
      else Fetched(decoded, false, e)
  }

  /** A 429 whose body carries the service's own hint line for `n`, after any
      lines without one, parks the cursor on the order with limit `n`. */
  lemma RateLimitHintParks(e: Engine, number: string, before: seq<string>, n: nat, after: seq<string>)
    requires forall j :: 0 <= j < |before| ==> !HasHint(before[j])
    requires n <= MaxInt
    ensures GetAccrualData(e, number, Reply(HttpTooManyRequests, before + [HintLine(n)] + after, None))
            == Fetched(None, true, Engine(n, number))
  {
    ExtractHintLine(before, n, after);
  }

  /** The store after recording an answer: `UpdateAccrual` with the answer's
      own order number, accrual and status; a failed update leaves the store
      as it was (the error is only logged). */
  function Record(s: Store, data: Option<AccrualResponse>, fault: TxFault): (after: Store)
    ensures data.None? ==> after == s
    ensures data.Some? && UpdateAccrual(s, data.value.order, data.value.accrual, data.value.status, fault).Ok? ==>
      after == UpdateAccrual(s, data.value.order, data.value.accrual, data.value.status, fault).value
    ensures data.Some? && UpdateAccrual(s, data.value.order, data.value.accrual, data.value.status, fault).Err? ==>
      after == s
  {
    match data
    case None => s
    case Some(resp) =>
      match UpdateAccrual(s, resp.order, resp.accrual, resp.status, fault)
      case Ok(s') => s'
      case Err(_) => s
  }

  /** Recording never lowers a balance and never touches the spent side or
      the withdrawals, and it only changes statuses. */
  lemma RecordKeepsLedger(s: Store, data: Option<AccrualResponse>, fault: TxFault)
    ensures var after := Record(s, data, fault);
      && after.withdrawals == s.withdrawals
      && SameClaims(s.orders, after.orders)
      && (forall u :: Spent(after.points, u) == Spent(s.points, u))
      && (forall u :: Accrued(after.points, u) >= Accrued(s.points, u))
  {
    if data.Some? {
      var resp := data.value;
      if UpdateAccrual(s, resp.order, resp.accrual, resp.status, fault).Ok? {
        UpdateAccrualLedger(s, resp.order, resp.accrual, resp.status, fault);
      }
    }
  }

  /** One step of the cycle: the engine and store after `processOrder`. */
  datatype Step = Step(store: Store, engine: Engine, cancelled: bool)

  /** `processOrder`: fetch the answer for `number` and record it. */
  function ProcessOrder(s: Store, e: Engine, number: string, reply: Reply, fault: TxFault): (step: Step)
    ensures step.cancelled <==> RateLimited(reply)
    ensures step.engine == GetAccrualData(e, number, reply).engine
    // a cancelled lookup, a 204, a transport error or a bad body write nothing
    ensures step.cancelled || reply.TransportError? || reply.decoded.None? || reply.statusCode == HttpNoContent ==>
      step.store == s
    ensures !step.cancelled && reply.Reply? && reply.statusCode != HttpNoContent && reply.decoded.Some? ==>
      step.store == Record(s, reply.decoded, fault)
  {
    var f := GetAccrualData(e, number, reply);
    Step(Record(s, f.data, fault), f.engine, f.cancelled)
  }

  /** The outcome of a cycle: the final store and engine, the order numbers
      looked up in order, and whether a 429 cut the batch short. */
  datatype Cycle = Cycle(store: Store, engine: Engine, looked: seq<string>, stopped: bool)

  /** The numbers of a batch, in order. */
  function Numbers(batch: seq<OrderRow>): (ns: seq<string>)
    ensures |ns| == |batch| && forall i :: 0 <= i < |batch| ==> ns[i] == batch[i].number
  {
    if batch == [] then [] else [batch[0].number] + Numbers(batch[1..])
  }

  /** The `initRequest` loop over a batch: each order in turn until one is
      answered with a 429. */
  function ProcessBatch(s: Store, e: Engine, batch: seq<OrderRow>, svc: string -> Reply, fault: string -> TxFault): (c: Cycle)
    // the orders looked up are a prefix of the batch, all of it unless stopped
    ensures |c.looked| <= |batch| && c.looked == Numbers(batch)[..|c.looked|]
    ensures !c.stopped ==> |c.looked| == |batch| && c.engine == e
    // the batch stops exactly at the first 429, which only the last lookup got
    ensures c.stopped ==> |c.looked| > 0 && RateLimited(svc(c.looked[|c.looked| - 1]))
    ensures c.stopped ==> c.engine == GetAccrualData(e, c.looked[|c.looked| - 1], svc(c.looked[|c.looked| - 1])).engine
    ensures forall i :: 0 <= i < |c.looked| - 1 ==> !RateLimited(svc(c.looked[i]))
    ensures !c.stopped ==> forall i :: 0 <= i < |c.looked| ==> !RateLimited(svc(c.looked[i]))
    decreases |batch|
  {
    if batch == [] then Cycle(s, e, [], false)
    else
      var number := batch[0].number;
      var step := ProcessOrder(s, e, number, svc(number), fault(number));
      if step.cancelled then Cycle(step.store, step.engine, [number], true)
      else
        var rest := ProcessBatch(step.store, step.engine, batch[1..], svc, fault);
        assert Numbers(batch) == [number] + Numbers(batch[1..]);
        Cycle(rest.store, rest.engine, [number] + rest.looked, rest.stopped)
  }

  /** Over a whole batch the ledger only grows by credits, and statuses are
      all that change in the order table. */
  lemma {:induction false} ProcessBatchKeepsLedger(s: Store, e: Engine, batch: seq<OrderRow>, svc: string -> Reply, fault: string -> TxFault)
    ensures var c := ProcessBatch(s, e, batch, svc, fault);
      && c.store.withdrawals == s.withdrawals
      && SameClaims(s.orders, c.store.orders)
      && (forall u :: Spent(c.store.points, u) == Spent(s.points, u))
      && (forall u :: Accrued(c.store.points, u) >= Accrued(s.points, u))
    decreases |batch|
  {
    if batch != [] {
      var number := batch[0].number;
      var step := ProcessOrder(s, e, number, svc(number), fault(number));
      RecordKeepsLedger(s, GetAccrualData(e, number, svc(number)).data, fault(number));
      if !step.cancelled {
        ProcessBatchKeepsLedger(step.store, step.engine, batch[1..], svc, fault);
      }
    }
  }

  /** No update after a 429: once a batch has been cut short, anything that
      follows it in the batch is never looked up and changes nothing. */
  lemma {:induction false} RateLimitEndsBatch(s: Store, e: Engine, batch: seq<OrderRow>, more: seq<OrderRow>,
                                              svc: string -> Reply, fault: string -> TxFault)
    requires ProcessBatch(s, e, batch, svc, fault).stopped
    ensures ProcessBatch(s, e, batch + more, svc, fault) == ProcessBatch(s, e, batch, svc, fault)
    decreases |batch|
  {
    assert batch != [];
    assert (batch + more)[0] == batch[0];
    var number := batch[0].number;
    var step := ProcessOrder(s, e, number, svc(number), fault(number));
    if !step.cancelled {
      assert (batch + more)[1..] == batch[1..] + more;
      RateLimitEndsBatch(step.store, step.engine, batch[1..], more, svc, fault);
    }
  }

  /** `initRequest` once the batch is fetched: a failed fetch is only logged,
      and the cycle then looks nothing up. */
  function RunCycle(s: Store, e: Engine, fetched: Result<seq<OrderRow>>, svc: string -> Reply, fault: string -> TxFault): (c: Cycle)
    ensures fetched.Err? ==> c == Cycle(s, e, [], false)
    ensures fetched.Ok? ==> c == ProcessBatch(s, e, fetched.value, svc, fault)
    ensures c.store.withdrawals == s.withdrawals
    ensures SameClaims(s.orders, c.store.orders)
    ensures forall u :: Spent(c.store.points, u) == Spent(s.points, u)
    ensures forall u :: Accrued(c.store.points, u) >= Accrued(s.points, u)
  {
    match fetched
    case Err(_) => Cycle(s, e, [], false)
    case Ok(batch) =>
      ProcessBatchKeepsLedger(s, e, batch, svc, fault);
      ProcessBatch(s, e, batch, svc, fault)
  }

  /** Some row of `orders` with this number is not final. */
  ghost predicate PendingIn(orders: seq<OrderRow>, number: string)
  {
    exists j :: 0 <= j < |orders| && orders[j].number == number && !IsFinal(orders[j].status)
  }

  /** One cycle of the engine as written. */
  function InitRequest(s: Store, e: Engine, fetchFails: bool, svc: string -> Reply, fault: string -> TxFault): (c: Cycle)
    ensures fetchFails || s.orders == [] ==> c == Cycle(s, e, [], false)
    ensures |c.looked| <= e.limit
    ensures c.store.withdrawals == s.withdrawals
    ensures SameClaims(s.orders, c.store.orders)
    ensures forall u :: Spent(c.store.points, u) == Spent(s.points, u)
  {
    RunCycle(s, e, GetNonFinalOrders(s.orders, e.limit, e.cursor, fetchFails), svc, fault)
  }

  /** A cycle looks up only pending orders of the store it starts from. */
  lemma InitRequestLooksUpPending(s: Store, e: Engine, fetchFails: bool, svc: string -> Reply, fault: string -> TxFault)
    ensures var c := InitRequest(s, e, fetchFails, svc, fault);
      forall i :: 0 <= i < |c.looked| ==> PendingIn(s.orders, c.looked[i])
  {
    var fetched := GetNonFinalOrders(s.orders, e.limit, e.cursor, fetchFails);
    if fetched.Ok? {
      var looked := RunCycle(s, e, fetched, svc, fault).looked;
      assert forall i :: 0 <= i < |looked| ==> looked[i] == Numbers(fetched.value)[i];
      LookedArePending(s.orders, fetched.value, looked);
    }
  }

  /** Looking up a prefix of a batch of pending rows looks up pending orders. */
  lemma LookedArePending(orders: seq<OrderRow>, batch: seq<OrderRow>, looked: seq<string>)
    requires forall i :: 0 <= i < |batch| ==> batch[i] in orders && !IsFinal(batch[i].status)
    requires |looked| <= |batch| && forall i :: 0 <= i < |looked| ==> looked[i] == batch[i].number
    ensures forall i :: 0 <= i < |looked| ==> PendingIn(orders, looked[i])
  {
    forall i | 0 <= i < |looked|
      ensures PendingIn(orders, looked[i])
    {
      var j :| 0 <= j < |orders| && orders[j] == batch[i];
      assert orders[j].number == looked[i];
    }
  }

  /** A cycle keeps the two ledger invariants: each number has one owner,
      and per user Σspent = Σwithdrawn. */
  lemma InitRequestKeepsInvariants(s: Store, e: Engine, fetchFails: bool, svc: string -> Reply, fault: string -> TxFault)
    requires UniqueOwners(s.orders) && SpentMatchesWithdrawals(s)
    ensures var c := InitRequest(s, e, fetchFails, svc, fault);
      UniqueOwners(c.store.orders) && SpentMatchesWithdrawals(c.store)
  {
    var c := InitRequest(s, e, fetchFails, svc, fault);
    SameClaimsKeepUniqueOwners(s.orders, c.store.orders);
  }

  /** One cycle with the corrected batch query. */
  function InitRequestCorrected(s: Store, e: Engine, fetchFails: bool, svc: string -> Reply, fault: string -> TxFault): (c: Cycle)
    ensures fetchFails || s.orders == [] ==> c == Cycle(s, e, [], false)
    ensures |c.looked| <= e.limit
    ensures c.store.withdrawals == s.withdrawals
    ensures SameClaims(s.orders, c.store.orders)
    ensures forall u :: Spent(c.store.points, u) == Spent(s.points, u)
  {
    RunCycle(s, e, GetNonFinalOrdersCorrected(s.orders, e.limit, e.cursor, fetchFails), svc, fault)
  }

  /** The corrected cycle, too, looks up only pending orders of the store it
      starts from, and only numbers that are digit strings. */
  lemma InitRequestCorrectedLooksUpPending(s: Store, e: Engine, fetchFails: bool, svc: string -> Reply, fault: string -> TxFault)
    ensures var c := InitRequestCorrected(s, e, fetchFails, svc, fault);
      forall i :: 0 <= i < |c.looked| ==> PendingIn(s.orders, c.looked[i]) && Cast(AsNumeric, c.looked[i]).Some?
  {
    var fetched := GetNonFinalOrdersCorrected(s.orders, e.limit, e.cursor, fetchFails);
    if fetched.Ok? {
      var looked := RunCycle(s, e, fetched, svc, fault).looked;
      assert forall i :: 0 <= i < |looked| ==> looked[i] == Numbers(fetched.value)[i];
      LookedArePending(s.orders, fetched.value, looked);
      forall i | 0 <= i < |looked|
        ensures Cast(AsNumeric, looked[i]).Some?
      {
        assert Selected(fetched.value[i], 0, AsNumeric);
      }
    }
  }

  /** `n` cycles of the engine, with the lookups of all of them; `corrected`
      selects the corrected batch query. */
  function Cycles(s: Store, e: Engine, n: nat, corrected: bool, svc: string -> Reply, fault: string -> TxFault): (c: Cycle)
    ensures c.store.withdrawals == s.withdrawals
    ensures SameClaims(s.orders, c.store.orders)
    ensures forall u :: Spent(c.store.points, u) == Spent(s.points, u)
    decreases n
  {
    if n == 0 then Cycle(s, e, [], false)
    else
      var first := if corrected then InitRequestCorrected(s, e, false, svc, fault) else InitRequest(s, e, false, svc, fault);
      var rest := Cycles(first.store, first.engine, n - 1, corrected, svc, fault);
      Cycle(rest.store, rest.engine, first.looked + rest.looked, rest.stopped)
  }

  /** A single cycle run through `Cycles` is that cycle, ending unstopped. */
  lemma OneCycle(s: Store, e: Engine, c: Cycle, svc: string -> Reply, fault: string -> TxFault)
    requires InitRequest(s, e, false, svc, fault) == c
    ensures Cycles(s, e, 1, false, svc, fault) == Cycle(c.store, c.engine, c.looked, false)
  {
    assert c.looked + [] == c.looked;
  }

  /** Two cycles in a row are the first cycle's lookups followed by the
      second's, ending in the second's store and engine. */
  lemma TwoCycles(s: Store, e: Engine, first: Cycle, second: Cycle, svc: string -> Reply, fault: string -> TxFault)
    requires InitRequest(s, e, false, svc, fault) == first
    requires InitRequest(first.store, first.engine, false, svc, fault) == second
    ensures Cycles(s, e, 2, false, svc, fault) == Cycle(second.store, second.engine, first.looked + second.looked, false)
  {
    OneCycle(first.store, first.engine, second, svc, fault);
  }

  /** A cycle that looks nothing up and changes nothing is a fixed point:
      every later cycle is idle too. */
  lemma {:induction false} IdleCycleRepeats(s: Store, e: Engine, n: nat, svc: string -> Reply, fault: string -> TxFault)
    requires InitRequest(s, e, false, svc, fault) == Cycle(s, e, [], false)
    ensures Cycles(s, e, n, false, svc, fault) == Cycle(s, e, [], false)
  {
    if n > 0 {
      IdleCycleRepeats(s, e, n - 1, svc, fault);
      assert [] + Cycles(s, e, n - 1, false, svc, fault).looked == [];
    }
  }

  /** The engine, run for any number of cycles, keeps both ledger invariants. */
  lemma CyclesKeepInvariants(s: Store, e: Engine, n: nat, corrected: bool, svc: string -> Reply, fault: string -> TxFault)
    requires UniqueOwners(s.orders) && SpentMatchesWithdrawals(s)
    ensures var c := Cycles(s, e, n, corrected, svc, fault);
      UniqueOwners(c.store.orders) && SpentMatchesWithdrawals(c.store)
  {
    var c := Cycles(s, e, n, corrected, svc, fault);
    SameClaimsKeepUniqueOwners(s.orders, c.store.orders);
  }

  /** One pending order whose number is too large for `INTEGER` stops the
      engine as written for good: from then on every cycle fails to fetch its
      batch, looks nothing up and changes nothing. */
  lemma OutOfRangeStallsEngine(s: Store, e: Engine, k: int, n: nat, svc: string -> Reply, fault: string -> TxFault)
    requires 0 <= k < |s.orders| && !IsFinal(s.orders[k].status)
    requires |s.orders[k].number| > 0 && AllDigits(s.orders[k].number) && Value(s.orders[k].number) > Int4Max
    requires e.limit == 0 || |Candidates(s.orders[..k], 0, AsInteger)| < e.limit
    ensures Cycles(s, e, n, false, svc, fault) == Cycle(s, e, [], false)
  {
    if e.limit == 0 {
      ZeroLimitStallsEngine(s, e, n, svc, fault);
    } else {
      OutOfRangeFailsBatch(s.orders, e.limit, e.cursor, false, k);
      IdleCycleRepeats(s, e, n, svc, fault);
    }
  }

  /** Any pending order whose number `INTEGER` cannot take, the empty number
      included, stops the engine as written in the same way. */
  lemma UncastableStallsEngine(s: Store, e: Engine, k: int, n: nat, svc: string -> Reply, fault: string -> TxFault)
    requires 0 <= k < |s.orders| && !IsFinal(s.orders[k].status)
    requires Cast(AsInteger, s.orders[k].number).None?
    requires e.limit == 0 || |Candidates(s.orders[..k], 0, AsInteger)| < e.limit
    ensures Cycles(s, e, n, false, svc, fault) == Cycle(s, e, [], false)
  {
    if e.limit == 0 {
      ZeroLimitStallsEngine(s, e, n, svc, fault);
    } else {
      UncastableFailsBatch(s.orders, e.limit, e.cursor, false, k);
      IdleCycleRepeats(s, e, n, svc, fault);
    }
  }

  /** A 429 whose hint allows 0 requests sets the limit to 0, and an engine
      with limit 0 looks nothing up and changes nothing, in any number of
      cycles: only a 429 could change the limit again. */
  lemma ZeroLimitStallsEngine(s: Store, e: Engine, n: nat, svc: string -> Reply, fault: string -> TxFault)
    requires e.limit == 0
    ensures Cycles(s, e, n, false, svc, fault) == Cycle(s, e, [], false)
  {
    var fetched := GetNonFinalOrders(s.orders, e.limit, e.cursor, false);
    if fetched.Ok? {
      assert fetched.value == [];
    }
    IdleCycleRepeats(s, e, n, svc, fault);
  }

  /** With the corrected query, a cycle looks up at least one order while a
      pending order with a positive number exists, whatever the cursor and
      whatever else the table holds. */
  lemma WrappingCyclePolls(s: Store, e: Engine, k: int, svc: string -> Reply, fault: string -> TxFault)
    requires 0 <= k < |s.orders| && !IsFinal(s.orders[k].status)
    requires AllDigits(s.orders[k].number) && Value(s.orders[k].number) > 0
    requires e.limit > 0
    ensures InitRequestCorrected(s, e, false, svc, fault).looked != []
  {
    WrappingMakesProgress(s.orders, e.limit, e.cursor, k);
  }
}

=== FILE: decimal.dfy ===
/**
 * ASCII decimal digit strings: the character class `[0-9]` used by the order
 * number check, the `\d` of the rate-limit hint, and the text-to-integer
 * conversions (`strconv.Atoi`, SQL `CAST(... AS INTEGER)` and `CAST(... AS NUMERIC)`).
 */
module Decimal {

  import opened Domain

  predicate IsDigit(c: char)
  {
    '0' <= c <= '9'
  }

  predicate AllDigits(s: string)
  {
    forall i :: 0 <= i < |s| ==> IsDigit(s[i])
  }

  function DigitValue(c: char): (d: nat)
    requires IsDigit(c)
    ensures d <= 9
  {
    c as int - '0' as int
  }

  function DigitChar(d: nat): (c: char)
    requires d <= 9
    ensures IsDigit(c) && DigitValue(c) == d
  {
    ('0' as int + d) as char
  }

  /** The value of a digit string read most-significant digit first. */
  function Value(s: string): nat
    requires AllDigits(s)
  {
    if s == [] then 0 else Value(s[..|s| - 1]) * 10 + DigitValue(s[|s| - 1])
  }

  /** The canonical decimal rendering of `n`, without leading zeros. */
  function Show(n: nat): (s: string)
    ensures |s| > 0 && AllDigits(s)
  {
    if n < 10 then [DigitChar(n)] else Show(n / 10) + [DigitChar(n % 10)]
  }

  /** Reading back a rendered number gives the number. */
  lemma {:induction false} ValueOfShow(n: nat)
    ensures Value(Show(n)) == n
  {
    if n >= 10 {
      var s := Show(n);
      assert s[..|s| - 1] == Show(n / 10);
      ValueOfShow(n / 10);
    }
  }

  /** The longest prefix of `s` made of digits. */
  function DigitRun(s: string): (d: string)
    ensures |d| <= |s| && d == s[..|d|]
    ensures AllDigits(d)
    ensures |d| < |s| ==> !IsDigit(s[|d|])
  {
    if s != [] && IsDigit(s[0]) then [s[0]] + DigitRun(s[1..]) else []
  }

  /** A digit string followed by a non-digit is exactly the digit run. */
  lemma {:induction false} DigitRunOfDigitsThen(d: string, t: string)
    requires AllDigits(d)
    requires t != [] && !IsDigit(t[0])
    ensures DigitRun(d + t) == d
  {
    if d != [] {
      assert (d + t)[1..] == d[1..] + t;
      DigitRunOfDigitsThen(d[1..], t);
    }
  }

  /** The largest value of PostgreSQL's `INTEGER`, a four-byte signed integer. */
  const Int4Max: nat := 2147483647

  /** The SQL type an order number is cast to: `INTEGER`, or the
      arbitrary-precision `NUMERIC`. */
  datatype SqlCast = AsInteger | AsNumeric

  /** PostgreSQL `CAST(s AS INTEGER)` or `CAST(s AS NUMERIC)` on order numbers:
      a non-empty digit string converts to its value when the type can hold
      it; anything else is a query error. */
  function Cast(t: SqlCast, s: string): (r: Option<nat>)
    ensures r.Some? <==> |s| > 0 && AllDigits(s) && (t == AsInteger ==> Value(s) <= Int4Max)
    ensures r.Some? ==> r.value == Value(s)
  {
    if |s| > 0 && AllDigits(s) && (t == AsInteger ==> Value(s) <= Int4Max) then Some(Value(s)) else None
  }

  /** A number rendered without leading zeros casts back to itself as
      `NUMERIC`, and as `INTEGER` exactly when it fits in four bytes. */
  lemma CastOfShow(n: nat)
    ensures Cast(AsNumeric, Show(n)) == Some(n)
    ensures Cast(AsInteger, Show(n)).Some? <==> n <= Int4Max
  {
    ValueOfShow(n);
  }

  function Pow10(k: nat): (p: nat)
    ensures p >= 1
  {
    if k == 0 then 1 else 10 * Pow10(k - 1)
  }

  lemma {:induction false} Pow10Monotone(a: nat, b: nat)
    requires a <= b
    ensures Pow10(a) <= Pow10(b)
    decreases b
  {
    if a < b {
      Pow10Monotone(a, b - 1);
    }
  }

  /** A digit string without a leading zero is worth at least 10^(|s| - 1). */
  lemma {:induction false} ValueLowerBound(s: string)
    requires |s| > 0 && AllDigits(s) && s[0] != '0'
    ensures Value(s) >= Pow10(|s| - 1)
    decreases |s|
  {
    if |s| > 1 {
      var prefix := s[..|s| - 1];
      assert prefix[0] == s[0];
      ValueLowerBound(prefix);
    }
  }

  /** Eleven digits or more, without a leading zero, never fit in `INTEGER`:
      its cast fails, while the `NUMERIC` cast succeeds. */
  lemma LongDigitsOverflowInteger(s: string)
    requires |s| >= 11 && AllDigits(s) && s[0] != '0'
    ensures Cast(AsInteger, s).None?
    ensures Cast(AsNumeric, s) == Some(Value(s))
  {
    ValueLowerBound(s);
    Pow10Monotone(10, |s| - 1);
    assert Pow10(10) == 10000000000;
  }
}

=== FILE: domain.dfy ===
/**
 * Shared vocabulary of the loyalty backend: error values, order statuses and
 * the rows of the three tables (`orders`, `loyalty_points`, `withdrawals`).
 * Tables are immutable sequences of rows; an operation that writes returns a
 * new store, and a failed write returns an error and no store at all, which is
 * how transactional rollback is expressed.
 */
module Domain {

  datatype Option<+T> = None | Some(value: T)

  datatype Result<+T> = Ok(value: T) | Err(error: Error)

  /** The sentinel errors of the domain package, plus the two shapes of ad-hoc
      errors the services build: a fresh error (`fmt.Errorf` without `%w`),
      which matches no sentinel, and a wrapping one (`fmt.Errorf` with `%w`). */
  datatype Error =
    | OrderAlreadyUploadedForThisUser
    | OrderAlreadyUploadedByAnotherUser
    | InternalServer
    | Failure
    | Wrapped(cause: Error)

  /** `errors.Is`: the error itself or anything it wraps equals the target. */
  predicate Is(e: Error, target: Error)
  {
    e == target || (e.Wrapped? && Is(e.cause, target))
  }

  /** HTTP status codes the handlers answer with. */
  const HttpOK: int := 200
  const HttpAccepted: int := 202
  const HttpNoContent: int := 204
  const HttpBadRequest: int := 400
  const HttpUnauthorized: int := 401
  const HttpPaymentRequired: int := 402
  const HttpConflict: int := 409
  const HttpUnprocessableEntity: int := 422
  const HttpTooManyRequests: int := 429
  const HttpInternalServerError: int := 500

  const StatusNew: string := "NEW"
  const StatusProcessing: string := "PROCESSING"
  const StatusInvalid: string := "INVALID"
  const StatusProcessed: string := "PROCESSED"

  /** The terminal statuses; every other status string is polled again. */
  predicate IsFinal(status: string)
  {
    status == StatusInvalid || status == StatusProcessed
  }

  /** A row of `orders`. The upload timestamp is not modelled. */
  datatype OrderRow = OrderRow(userId: int, number: string, status: string)

  /** A row of `loyalty_points`: one credit or one debit of a user. */
  datatype PointRow = PointRow(userId: int, accrued: real, spent: real)

  /** A row of `withdrawals`; `processedAt` is the database clock at insertion. */
  datatype WithdrawalRow = WithdrawalRow(userId: int, order: string, sum: real, processedAt: int)

  datatype Store = Store(orders: seq<OrderRow>, points: seq<PointRow>, withdrawals: seq<WithdrawalRow>)

  /** Each order number has at most one owner. */
  ghost predicate UniqueOwners(orders: seq<OrderRow>)
  {
    forall i, j :: 0 <= i < |orders| && 0 <= j < |orders| && orders[i].number == orders[j].number ==>
      orders[i].userId == orders[j].userId
  }

  /** Σ accrued over the user's ledger rows. */
  function Accrued(points: seq<PointRow>, user: int): real
  {
    if points == [] then 0.0
    else Accrued(points[..|points| - 1], user) + (if points[|points| - 1].userId == user then points[|points| - 1].accrued else 0.0)
  }

  /** Σ spent over the user's ledger rows. */
  function Spent(points: seq<PointRow>, user: int): real
  {
    if points == [] then 0.0
    else Spent(points[..|points| - 1], user) + (if points[|points| - 1].userId == user then points[|points| - 1].spent else 0.0)
  }

  /** Σ sum over the user's withdrawal rows. */
  function Withdrawn(withdrawals: seq<WithdrawalRow>, user: int): real
  {
    if withdrawals == [] then 0.0
    else Withdrawn(withdrawals[..|withdrawals| - 1], user) + (if withdrawals[|withdrawals| - 1].userId == user then withdrawals[|withdrawals| - 1].sum else 0.0)
  }

  /** The ledger invariant: every point a user spent is accounted for by a withdrawal. */
  ghost predicate SpentMatchesWithdrawals(s: Store)
  {
    forall user :: Spent(s.points, user) == Withdrawn(s.withdrawals, user)
  }

  /** One appended ledger row moves the user's sums by its own amounts if it
      is the user's, and not at all otherwise. */
  lemma PointsAppend(points: seq<PointRow>, row: PointRow, user: int)
    ensures Accrued(points + [row], user) == Accrued(points, user) + (if row.userId == user then row.accrued else 0.0)
    ensures Spent(points + [row], user) == Spent(points, user) + (if row.userId == user then row.spent else 0.0)
  {
    assert (points + [row])[..|points|] == points;
  }

  /** The rows of users other than `user` never contribute to that user's sums. */
  lemma {:induction false} OtherUsersIgnored(points: seq<PointRow>, others: seq<PointRow>, user: int)
    requires forall i :: 0 <= i < |others| ==> others[i].userId != user
    ensures Accrued(points + others, user) == Accrued(points, user)
    ensures Spent(points + others, user) == Spent(points, user)
    decreases |others|
  {
    if others != [] {
      var init := others[..|others| - 1];
      assert (points + others)[..|points + others| - 1] == points + init;
      OtherUsersIgnored(points, init, user);
    } else {
      assert points + others == points;
    }
  }
}

=== FILE: ledger_persistence.dfy ===
/**
 * The point ledger as the repositories see it: the `loyalty_points` table of
 * credits and debits and the `withdrawals` table. Balances are never stored;
 * they are sums over these append-only tables.
 */
module LoyaltyPointPersistence {

  import opened Domain

  /** `GetCurrentPoints`: Σaccrued − Σspent over the user's rows, 0 without rows. */
  function GetCurrentPoints(points: seq<PointRow>, user: int, fails: bool): (r: (real, Option<Error>))
    ensures fails ==> r == (0.0, Some(InternalServer))
    ensures !fails ==> r.1 == None
  {
    if fails then (0.0, Some(InternalServer)) else (Accrued(points, user) - Spent(points, user), None)
  }

  /** A user without ledger rows has no points. */
  lemma NoRowsNoPoints(points: seq<PointRow>, user: int)
    requires forall i :: 0 <= i < |points| ==> points[i].userId != user
    ensures GetCurrentPoints(points, user, false) == (0.0, None)
  {
    OtherUsersIgnored([], points, user);
    assert [] + points == points;
  }

  /** Rows of other users, wherever they are appended, never change the result. */
  lemma CurrentPointsIgnoreOthers(points: seq<PointRow>, others: seq<PointRow>, user: int)
    requires forall i :: 0 <= i < |others| ==> others[i].userId != user
    ensures GetCurrentPoints(points + others, user, false) == GetCurrentPoints(points, user, false)
  {
    OtherUsersIgnored(points, others, user);
  }

  /** A new row moves the user's points by its accrued minus its spent amount. */
  lemma CurrentPointsAppend(points: seq<PointRow>, row: PointRow, user: int)
    ensures GetCurrentPoints(points + [row], user, false).0 ==
      GetCurrentPoints(points, user, false).0 + (if row.userId == user then row.accrued - row.spent else 0.0)
  {
    assert (points + [row])[..|points|] == points;
  }
}

module WithdrawalPersistence {

  import opened Domain

  /** `GetWithdrawalPoints`: the sum of the user's withdrawals, 0 without any. */
  function GetWithdrawalPoints(withdrawals: seq<WithdrawalRow>, user: int, fails: bool): (r: (real, Option<Error>))
    ensures fails ==> r == (0.0, Some(InternalServer))
    ensures !fails ==> r.1 == None
  {
    if fails then (0.0, Some(InternalServer)) else (Withdrawn(withdrawals, user), None)
  }

  /** A user without withdrawals has withdrawn nothing, whatever other users did. */
  lemma {:induction false} NoRowsNothingWithdrawn(withdrawals: seq<WithdrawalRow>, user: int)
    requires forall i :: 0 <= i < |withdrawals| ==> withdrawals[i].userId != user
    ensures GetWithdrawalPoints(withdrawals, user, false) == (0.0, None)
    decreases |withdrawals|
  {
    if withdrawals != [] {
      NoRowsNothingWithdrawn(withdrawals[..|withdrawals| - 1], user);
    }
  }

  /** A new withdrawal row moves the total by its sum if it is the user's, and
      leaves it alone otherwise. */
  lemma WithdrawnPointsAppend(withdrawals: seq<WithdrawalRow>, row: WithdrawalRow, user: int)
    ensures GetWithdrawalPoints(withdrawals + [row], user, false).0 ==
      GetWithdrawalPoints(withdrawals, user, false).0 + (if row.userId == user then row.sum else 0.0)
  {
    assert (withdrawals + [row])[..|withdrawals|] == withdrawals;
  }

  /** The step of the `WithdrawFunds` transaction that fails, if any. */
  datatype WithdrawFault = NoFault | BeginFails | DebitInsertFails | WithdrawalInsertFails | CommitFails

  /** `WithdrawFunds`: in one transaction, a ledger row (spent = sum, accrued = 0)
      and a withdrawal row (order, sum) for the user. No balance check happens
      here. `now` is the database clock that fills `processed_at`. */
  function WithdrawFunds(s: Store, user: int, order: string, sum: real, now: int, fault: WithdrawFault): (r: Result<Store>)
    ensures fault != NoFault ==> r == Err(InternalServer)
    ensures fault == NoFault ==> r.Ok?
    ensures r.Ok? ==> r.value.orders == s.orders
    ensures r.Ok? ==> |r.value.points| == |s.points| + 1 && r.value.points[..|s.points|] == s.points
    ensures r.Ok? ==> r.value.points[|s.points|] == PointRow(user, 0.0, sum)
    ensures r.Ok? ==> |r.value.withdrawals| == |s.withdrawals| + 1 && r.value.withdrawals[..|s.withdrawals|] == s.withdrawals
    ensures r.Ok? ==> r.value.withdrawals[|s.withdrawals|] == WithdrawalRow(user, order, sum, now)
  {
    if fault != NoFault then Err(InternalServer)
    else Ok(Store(s.orders, s.points + [PointRow(user, 0.0, sum)], s.withdrawals + [WithdrawalRow(user, order, sum, now)]))
  }

  /** After a withdrawal the user's current points drop by `sum` and the
      withdrawn total rises by `sum`; every other user is untouched. */
  lemma WithdrawFundsMovesPoints(s: Store, user: int, order: string, sum: real, now: int, other: int)
    requires other != user
    ensures var after := WithdrawFunds(s, user, order, sum, now, NoFault).value;
      && Accrued(after.points, user) - Spent(after.points, user) == Accrued(s.points, user) - Spent(s.points, user) - sum
      && Withdrawn(after.withdrawals, user) == Withdrawn(s.withdrawals, user) + sum
      && Accrued(after.points, other) == Accrued(s.points, other)
      && Spent(after.points, other) == Spent(s.points, other)
      && Withdrawn(after.withdrawals, other) == Withdrawn(s.withdrawals, other)
  {
    var after := WithdrawFunds(s, user, order, sum, now, NoFault).value;
    assert after.points[..|s.points|] == s.points;
    assert after.withdrawals[..|s.withdrawals|] == s.withdrawals;
  }

  /** A withdrawal keeps Σspent equal to Σwithdrawn for every user. */
  lemma WithdrawFundsKeepsLedger(s: Store, user: int, order: string, sum: real, now: int, fault: WithdrawFault)
    requires SpentMatchesWithdrawals(s)
    requires WithdrawFunds(s, user, order, sum, now, fault).Ok?
    ensures SpentMatchesWithdrawals(WithdrawFunds(s, user, order, sum, now, fault).value)
  {
    var after := WithdrawFunds(s, user, order, sum, now, fault).value;
    forall u ensures Spent(after.points, u) == Withdrawn(after.withdrawals, u) {
      assert after.points[..|s.points|] == s.points;
      assert after.withdrawals[..|s.withdrawals|] == s.withdrawals;
    }
  }

  /** The user's rows of `withdrawals`, in table order. */
  function UserWithdrawals(withdrawals: seq<WithdrawalRow>, user: int): (rows: seq<WithdrawalRow>)
    ensures forall w :: w in rows <==> w in withdrawals && w.userId == user
    // every row of the user is kept as often as it occurs, and no other row
    ensures forall w :: multiset(rows)[w] == if w.userId == user then multiset(withdrawals)[w] else 0
  {
    if withdrawals == [] then []
    else
      assert withdrawals == [withdrawals[0]] + withdrawals[1..];
      (if withdrawals[0].userId == user then [withdrawals[0]] else []) + UserWithdrawals(withdrawals[1..], user)
  }

  predicate SortedByTime(rows: seq<WithdrawalRow>)
  {
    forall i, j :: 0 <= i < j < |rows| ==> rows[i].processedAt <= rows[j].processedAt
  }

  /** In a sorted list, no row is older than the first. */
  lemma SortedHead(rows: seq<WithdrawalRow>)
    requires rows != [] && SortedByTime(rows)
    ensures forall x :: x in rows ==> rows[0].processedAt <= x.processedAt
  {
    forall x | x in rows ensures rows[0].processedAt <= x.processedAt {
      var k :| 0 <= k < |rows| && rows[k] == x;
    }
  }

  /** A row no newer than every row of a sorted list can go in front of it. */
  lemma SortedCons(w: WithdrawalRow, rows: seq<WithdrawalRow>)
    requires SortedByTime(rows)
    requires forall x :: x in rows ==> w.processedAt <= x.processedAt
    ensures SortedByTime([w] + rows)
  {
    var r := [w] + rows;
    forall i, j | 0 <= i < j < |r| ensures r[i].processedAt <= r[j].processedAt {
      assert r[j] == rows[j - 1] && rows[j - 1] in rows;
      if i > 0 {
        assert r[i] == rows[i - 1];
      }
    }
  }

  function InsertByTime(w: WithdrawalRow, rows: seq<WithdrawalRow>): (r: seq<WithdrawalRow>)
    requires SortedByTime(rows)
    ensures SortedByTime(r)
    ensures multiset(r) == multiset(rows) + multiset{w}
    ensures forall x :: x in r ==> x == w || x in rows
  {
    if rows == [] then [w]
    else if w.processedAt <= rows[0].processedAt then
      SortedHead(rows);
      SortedCons(w, rows);
      [w] + rows
    else
      assert rows == [rows[0]] + rows[1..];
      var tail := InsertByTime(w, rows[1..]);
      SortedHead(rows);
      SortedCons(rows[0], tail);
      [rows[0]] + tail
  }

  /** `ORDER BY processed_at ASC`. */
  function SortByTime(rows: seq<WithdrawalRow>): (r: seq<WithdrawalRow>)
    ensures SortedByTime(r)
    ensures multiset(r) == multiset(rows)
  {
    if rows == [] then []
    else
      assert rows == [rows[0]] + rows[1..];
      InsertByTime(rows[0], SortByTime(rows[1..]))
  }

  /** `GetWithdrawalsByUserID`: exactly the user's withdrawals, oldest first. */
  function GetWithdrawalsByUserID(withdrawals: seq<WithdrawalRow>, user: int, fails: bool): (r: Result<seq<WithdrawalRow>>)
    ensures fails ==> r == Err(InternalServer)
    ensures !fails ==> r.Ok? && SortedByTime(r.value)
    ensures !fails ==> multiset(r.value) == multiset(UserWithdrawals(withdrawals, user))
    ensures r.Ok? ==> forall w :: w in r.value <==> w in withdrawals && w.userId == user
  {
    if fails then Err(InternalServer)
    else
      var mine := UserWithdrawals(withdrawals, user);
      var rows := SortByTime(mine);
      assert forall w :: w in rows <==> w in multiset(rows);
      assert forall w :: w in mine <==> w in multiset(mine);
      Ok(rows)
  }
}

=== FILE: order_handler.dfy ===
/**
 * The HTTP handlers for orders: `UploadOrder` (POST of a bare order number)
 * and `GetOrders` (the user's order list). A request body that could not be
 * read is `None`; a request without an authenticated user id is `user == None`.
 */
module OrderHandler {

  import opened Domain
  import opened Validation
  import opened OrderPersistence
  import opened OrderService

  datatype Upload = Upload(code: int, orders: seq<OrderRow>, calls: seq<RepoCall>)

  /** The status for an error of the order use case, matched with `errors.Is`. */
  function UploadErrorStatus(e: Error): (code: int)
    ensures code == HttpOK <==> Is(e, OrderAlreadyUploadedForThisUser)
    ensures code == HttpConflict <==> !Is(e, OrderAlreadyUploadedForThisUser) && Is(e, OrderAlreadyUploadedByAnotherUser)
    ensures code in {HttpOK, HttpConflict, HttpInternalServerError}
  {
    if Is(e, OrderAlreadyUploadedForThisUser) then HttpOK
    else if Is(e, OrderAlreadyUploadedByAnotherUser) then HttpConflict
    else HttpInternalServerError
  }

  function UploadOrder(body: Option<string>, user: Option<int>, orders: seq<OrderRow>, d: Driver): (r: Upload)
    // the checks before the use case: unreadable body, bad checksum, no user id
    ensures body.None? ==> r == Upload(HttpBadRequest, orders, [])
    ensures body.Some? && !LuhnValid(body.value) ==> r == Upload(HttpUnprocessableEntity, orders, [])
    ensures body.Some? && LuhnValid(body.value) && user.None? ==> r == Upload(HttpInternalServerError, orders, [])
    // 202 exactly when a new row was stored for this user and number
    ensures r.code == HttpAccepted <==>
      body.Some? && user.Some? && r.orders == orders + [OrderRow(user.value, body.value, StatusNew)]
    ensures r.code != HttpAccepted ==> r.orders == orders
    // a valid number nobody owns is stored when every repository call succeeds
    ensures body.Some? && LuhnValid(body.value) && user.Some? && d == Healthy
            && !OwnedBy(orders, user.value, body.value) && !OwnedByOther(orders, user.value, body.value) ==>
      r.code == HttpAccepted
    // 200: the same user uploaded it before; 409: another user owns it
    ensures r.code == HttpOK <==>
      (body.Some? && LuhnValid(body.value) && user.Some? && !d.existsFails && OwnedBy(orders, user.value, body.value))
    ensures r.code == HttpConflict <==>
      (body.Some? && LuhnValid(body.value) && user.Some? && !d.existsFails && !d.claimedFails
       && !OwnedBy(orders, user.value, body.value) && OwnedByOther(orders, user.value, body.value))
    // 202 in terms of the inputs alone: a valid number nobody owns, and every repository call succeeds
    ensures r.code == HttpAccepted <==>
      (body.Some? && LuhnValid(body.value) && user.Some? && !d.existsFails && !d.claimedFails && !d.insertFails
       && !OwnedBy(orders, user.value, body.value) && !OwnedByOther(orders, user.value, body.value))
    // 500: no user id, or a repository call that fails before an answer is known; nothing is stored
    ensures r.code == HttpInternalServerError <==>
      (body.Some? && LuhnValid(body.value)
       && (user.None?
           || d.existsFails
           || (!OwnedBy(orders, user.value, body.value) && d.claimedFails)
           || (!OwnedBy(orders, user.value, body.value) && !OwnedByOther(orders, user.value, body.value) && d.insertFails)))
    ensures r.code == HttpInternalServerError ==> r.orders == orders
    ensures r.code in {HttpOK, HttpAccepted, HttpBadRequest, HttpConflict, HttpUnprocessableEntity, HttpInternalServerError}
  {
    match body
    case None => Upload(HttpBadRequest, orders, [])
    case Some(number) =>
      if !LuhnValid(number) then Upload(HttpUnprocessableEntity, orders, [])
      else
        match user
        case None => Upload(HttpInternalServerError, orders, [])
        case Some(id) =>
          var p := ProcessOrder(orders, id, number, d);
          match p.err
          case None => Upload(HttpAccepted, p.orders, p.calls)
          case Some(e) => Upload(UploadErrorStatus(e), p.orders, p.calls)
  }

  /** An upload never gives an order number a second owner. */
  lemma UploadOrderKeepsUniqueOwners(body: Option<string>, user: Option<int>, orders: seq<OrderRow>, d: Driver)
    requires UniqueOwners(orders)
    ensures UniqueOwners(UploadOrder(body, user, orders, d).orders)
  {
    if body.Some? && LuhnValid(body.value) && user.Some? {
      ProcessOrderKeepsUniqueOwners(orders, user.value, body.value, d);
    }
  }

  /** The five cases of the handler test, each reproduced by a table and a
      driver that make the use case answer as the test double does. */
  lemma UploadOrderTestCases()
    ensures UploadOrder(Some("12345678903"), Some(1), [], Healthy).code == HttpAccepted
    ensures UploadOrder(Some("4324802833166747"), Some(1), [OrderRow(1, "4324802833166747", StatusNew)], Healthy).code == HttpOK
    ensures UploadOrder(Some("9278923470"), Some(2), [OrderRow(1, "9278923470", StatusNew)], Healthy).code == HttpConflict
    ensures UploadOrder(Some("invalid"), Some(1), [], Healthy).code == HttpUnprocessableEntity
    ensures UploadOrder(Some(""), Some(1), [], Driver(false, false, true)).code == HttpInternalServerError
  {
    HandlerTestNumbers();
    EmptyAccepted();
    var ok := [OrderRow(1, "4324802833166747", StatusNew)];
    assert ok[0].userId == 1 && ok[0].number == "4324802833166747";
    var conflict := [OrderRow(1, "9278923470", StatusNew)];
    assert conflict[0].userId != 2 && conflict[0].number == "9278923470";
  }

  /** `GetOrders`: the status for the use case's answer. */
  function GetOrders(user: Option<int>, listing: Result<seq<OrderRow>>, encodeFails: bool): (code: int)
    ensures code == HttpNoContent <==> user.Some? && listing == Ok([])
    ensures code == HttpOK <==> user.Some? && listing.Ok? && listing.value != [] && !encodeFails
    ensures listing.Err? ==> code == HttpInternalServerError
    ensures code in {HttpOK, HttpNoContent, HttpInternalServerError}
  {
    match user
    case None => HttpInternalServerError
    case Some(_) =>
      match listing
      case Err(_) => HttpInternalServerError
      case Ok(orders) =>
        if |orders| == 0 then HttpNoContent
        else if encodeFails then HttpInternalServerError
        else HttpOK
  }
}

=== FILE: order_persistence.dfy ===
/**
 * The order repository over the `orders` table: two existence queries and the
 * insert of a new order. Each call takes `fails`, standing for an error the
 * database driver reports; such a call returns a fresh error and writes nothing.
 */
module OrderPersistence {

  import opened Domain

  /** A row owned by `user` carries `number`. */
  ghost predicate OwnedBy(orders: seq<OrderRow>, user: int, number: string)
  {
    exists i :: 0 <= i < |orders| && orders[i].userId == user && orders[i].number == number
  }

  /** A row owned by someone other than `user` carries `number`. */
  ghost predicate OwnedByOther(orders: seq<OrderRow>, user: int, number: string)
  {
    exists i :: 0 <= i < |orders| && orders[i].userId != user && orders[i].number == number
  }

  /** A row scan for `user_id = user AND number = number`. */
  function ScanForUser(orders: seq<OrderRow>, user: int, number: string): (found: bool)
    ensures found <==> OwnedBy(orders, user, number)
  {
    if orders == [] then false
    else if orders[0].userId == user && orders[0].number == number then true
    else
      var found := ScanForUser(orders[1..], user, number);
      assert OwnedBy(orders[1..], user, number) ==> OwnedBy(orders, user, number) by {
        if OwnedBy(orders[1..], user, number) {
          var i :| 0 <= i < |orders[1..]| && orders[1..][i].userId == user && orders[1..][i].number == number;
          assert orders[i + 1] == orders[1..][i];
        }
      }
      found
  }

  /** A row scan for `number = number AND user_id != user`. */
  function ScanForOther(orders: seq<OrderRow>, user: int, number: string): (found: bool)
    ensures found <==> OwnedByOther(orders, user, number)
  {
    if orders == [] then false
    else if orders[0].userId != user && orders[0].number == number then true
    else
      var found := ScanForOther(orders[1..], user, number);
      assert OwnedByOther(orders[1..], user, number) ==> OwnedByOther(orders, user, number) by {
        if OwnedByOther(orders[1..], user, number) {
          var i :| 0 <= i < |orders[1..]| && orders[1..][i].userId != user && orders[1..][i].number == number;
          assert orders[i + 1] == orders[1..][i];
        }
      }
      found
  }

  /** `OrderExistsForUser`: true iff the user already uploaded that number. */
  function OrderExistsForUser(orders: seq<OrderRow>, user: int, number: string, fails: bool): (r: Result<bool>)
    ensures fails ==> r == Err(Failure)
    ensures !fails ==> r.Ok? && (r.value <==> OwnedBy(orders, user, number))
  {
    if fails then Err(Failure) else Ok(ScanForUser(orders, user, number))
  }

  /** `OrderClaimedByAnotherUser`: true iff a different user owns that number. */
  function OrderClaimedByAnotherUser(orders: seq<OrderRow>, user: int, number: string, fails: bool): (r: Result<bool>)
    ensures fails ==> r == Err(Failure)
    ensures !fails ==> r.Ok? && (r.value <==> OwnedByOther(orders, user, number))
  {
    if fails then Err(Failure) else Ok(ScanForOther(orders, user, number))
  }

  /** `AddOrder`: exactly one new row (user, number, NEW), every existing row kept. */
  function AddOrder(orders: seq<OrderRow>, user: int, number: string, fails: bool): (r: Result<seq<OrderRow>>)
    ensures fails ==> r == Err(Failure)
    ensures !fails ==> r.Ok? && |r.value| == |orders| + 1
    ensures !fails ==> r.value[..|orders|] == orders
    ensures !fails ==> r.value[|orders|] == OrderRow(user, number, StatusNew)
  {
    if fails then Err(Failure) else Ok(orders + [OrderRow(user, number, StatusNew)])
  }
}

=== FILE: order_service.dfy ===
/**
 * `OrderService.ProcessOrder`: claim an order number for a user. The three
 * repository calls run in sequence and the first failure or decision ends the
 * call; the `calls` trace records which of them ran.
 */
module OrderService {

  import opened Domain
  import opened OrderPersistence

  datatype RepoCall = ExistsForUserCall | ClaimedByAnotherCall | AddOrderCall

  /** Which of the three repository calls the driver fails. */
  datatype Driver = Driver(existsFails: bool, claimedFails: bool, insertFails: bool)

  const Healthy: Driver := Driver(false, false, false)

  datatype Processed = Processed(err: Option<Error>, orders: seq<OrderRow>, calls: seq<RepoCall>)

  function ProcessOrder(orders: seq<OrderRow>, user: int, number: string, d: Driver): (r: Processed)
    // the user's own earlier upload wins, and nothing else is asked or written
    ensures !d.existsFails && OwnedBy(orders, user, number) ==>
      r == Processed(Some(OrderAlreadyUploadedForThisUser), orders, [ExistsForUserCall])
    // a number owned by somebody else is a conflict, and nothing is written
    ensures !d.existsFails && !d.claimedFails && !OwnedBy(orders, user, number) && OwnedByOther(orders, user, number) ==>
      r == Processed(Some(OrderAlreadyUploadedByAnotherUser), orders, [ExistsForUserCall, ClaimedByAnotherCall])
    // a fresh number is inserted exactly once
    ensures !d.existsFails && !d.claimedFails && !d.insertFails
            && !OwnedBy(orders, user, number) && !OwnedByOther(orders, user, number) ==>
      r == Processed(None, orders + [OrderRow(user, number, StatusNew)], [ExistsForUserCall, ClaimedByAnotherCall, AddOrderCall])
    // a failing repository call gives a generic error and stops the sequence there
    ensures d.existsFails ==> r == Processed(Some(Failure), orders, [ExistsForUserCall])
    ensures !d.existsFails && !OwnedBy(orders, user, number) && d.claimedFails ==>
      r == Processed(Some(Failure), orders, [ExistsForUserCall, ClaimedByAnotherCall])
    ensures !d.existsFails && !d.claimedFails && !OwnedBy(orders, user, number) && !OwnedByOther(orders, user, number)
            && d.insertFails ==>
      r == Processed(Some(Failure), orders, [ExistsForUserCall, ClaimedByAnotherCall, AddOrderCall])
    ensures r.err.Some? ==> r.orders == orders
    ensures r.err.Some? && r.err.value != OrderAlreadyUploadedForThisUser && r.err.value != OrderAlreadyUploadedByAnotherUser ==>
      r.err == Some(Failure)
    ensures AddOrderCall in r.calls ==> r.calls == [ExistsForUserCall, ClaimedByAnotherCall, AddOrderCall]
  {
    match OrderExistsForUser(orders, user, number, d.existsFails)
    case Err(_) => Processed(Some(Failure), orders, [ExistsForUserCall])
    case Ok(ownExists) =>
      if ownExists then Processed(Some(OrderAlreadyUploadedForThisUser), orders, [ExistsForUserCall])
      else
        match OrderClaimedByAnotherUser(orders, user, number, d.claimedFails)
        case Err(_) => Processed(Some(Failure), orders, [ExistsForUserCall, ClaimedByAnotherCall])
        case Ok(claimed) =>
          if claimed then
            Processed(Some(OrderAlreadyUploadedByAnotherUser), orders, [ExistsForUserCall, ClaimedByAnotherCall])
          else
            match AddOrder(orders, user, number, d.insertFails)
            case Err(_) => Processed(Some(Failure), orders, [ExistsForUserCall, ClaimedByAnotherCall, AddOrderCall])
            case Ok(orders') => Processed(None, orders', [ExistsForUserCall, ClaimedByAnotherCall, AddOrderCall])
  }

  /** Claiming never gives an order number a second owner. */
  lemma ProcessOrderKeepsUniqueOwners(orders: seq<OrderRow>, user: int, number: string, d: Driver)
    requires UniqueOwners(orders)
    ensures UniqueOwners(ProcessOrder(orders, user, number, d).orders)
  {
    var r := ProcessOrder(orders, user, number, d);
    if r.err.None? {
      assert r.orders == orders + [OrderRow(user, number, StatusNew)];
      forall i | 0 <= i < |orders| ensures orders[i].number != number {
        assert !(orders[i].userId == user && orders[i].number == number);
        assert !(orders[i].userId != user && orders[i].number == number);
      }
    }
  }

  /** Repeating a successful claim reports the user's own earlier upload and
      leaves the table as it is. */
  lemma ProcessOrderRepeat(orders: seq<OrderRow>, user: int, number: string, d: Driver, d': Driver)
    requires ProcessOrder(orders, user, number, d).err.None?
    requires !d'.existsFails
    ensures var once := ProcessOrder(orders, user, number, d).orders;
      ProcessOrder(once, user, number, d') == Processed(Some(OrderAlreadyUploadedForThisUser), once, [ExistsForUserCall])
  {
    var once := ProcessOrder(orders, user, number, d).orders;
    assert once[|orders|] == OrderRow(user, number, StatusNew);
    assert OwnedBy(once, user, number);
  }

  /** After a successful claim the number belongs to the user and to nobody else. */
  lemma ProcessOrderClaims(orders: seq<OrderRow>, user: int, number: string, d: Driver)
    requires ProcessOrder(orders, user, number, d).err.None?
    ensures var after := ProcessOrder(orders, user, number, d).orders;
      OwnedBy(after, user, number) && !OwnedByOther(after, user, number)
  {
    var after := ProcessOrder(orders, user, number, d).orders;
    assert after == orders + [OrderRow(user, number, StatusNew)];
    assert after[|orders|] == OrderRow(user, number, StatusNew);
    forall i | 0 <= i < |orders| ensures orders[i].number != number {
      assert !(orders[i].userId == user && orders[i].number == number);
    }
  }
}

=== FILE: rate_limit_hint.dfy ===
/**
 * The rate-limit hint of a 429 reply: the body is scanned line by line for
 * `No more than (\d+) requests per minute allowed`, and the first line that
 * matches gives the new batch limit through `strconv.Atoi`.
 */
module RateLimitHint {

  import opened Domain
  import opened Decimal

  const HintPrefix: string := "No more than "
  const HintSuffix: string := " requests per minute allowed"

  /** The largest Go `int` on a 64-bit platform; `strconv.Atoi` rejects more. */
  const MaxInt: nat := 0x7FFF_FFFF_FFFF_FFFF

  /** The pattern matches at `p` with a capture of exactly `k` digits: the
      regular expression's own reading, with the digit count left open. */
  ghost predicate PatternAt(line: string, p: nat, k: nat)
  {
    var start := p + |HintPrefix|;
    start + k + |HintSuffix| <= |line|
    && line[p..start] == HintPrefix
    && k > 0 && AllDigits(line[start..start + k])
    && line[start + k..start + k + |HintSuffix|] == HintSuffix
  }

  /** The pattern matches at `p`: the prefix, the longest run of digits after
      it (at least one), then the suffix. */
  predicate MatchAt(line: string, p: nat)
  {
    p + |HintPrefix| <= |line|
    && line[p..p + |HintPrefix|] == HintPrefix
    && var d := DigitRun(line[p + |HintPrefix|..]);
       |d| > 0 && HintSuffix <= line[p + |HintPrefix| + |d|..]
  }

  /** The digits `(\d+)` captures at a match. */
  function CapturedDigits(line: string, p: nat): (d: string)
    requires MatchAt(line, p)
    ensures |d| > 0 && AllDigits(d)
  {
    DigitRun(line[p + |HintPrefix|..])
  }

  /** A match found by `MatchAt` is a match of the regular expression. */
  lemma MatchAtIsPattern(line: string, p: nat)
    requires MatchAt(line, p)
    ensures PatternAt(line, p, |CapturedDigits(line, p)|)
  {
    var start := p + |HintPrefix|;
    var d := CapturedDigits(line, p);
    var tail := line[start + |d|..];
    assert line[start..start + |d|] == d;
    assert HintSuffix <= tail;
    assert line[start + |d|..start + |d| + |HintSuffix|] == tail[..|HintSuffix|];
  }

  /** Because the suffix starts with a non-digit, the greedy capture is the
      only one: every match of the regular expression is found by `MatchAt`,
      with the same digits. */
  lemma PatternIsMatchAt(line: string, p: nat, k: nat)
    requires PatternAt(line, p, k)
    ensures MatchAt(line, p) && k == |CapturedDigits(line, p)|
  {
    var start := p + |HintPrefix|;
    var rest := line[start..];
    // the run covers the k captured digits, and stops at the suffix's space
    assert rest[..k] == line[start..start + k];
    assert rest[k] == HintSuffix[0];
    assert rest == rest[..k] + rest[k..];
    DigitRunOfDigitsThen(rest[..k], rest[k..]);
    assert |DigitRun(rest)| == k;
    assert line[start + k..][..|HintSuffix|] == line[start + k..start + k + |HintSuffix|];
  }

  /** The leftmost match at or after `from`, as `FindStringSubmatch` finds it. */
  function FindHint(line: string, from: nat): (r: Option<nat>)
    ensures r.Some? ==> from <= r.value <= |line| && MatchAt(line, r.value)
    ensures r.Some? ==> forall j :: from <= j < r.value ==> !MatchAt(line, j)
    ensures r.None? ==> forall j :: from <= j ==> !MatchAt(line, j)
    decreases |line| - from
  {
    if from > |line| then None
    else if MatchAt(line, from) then Some(from)
    else FindHint(line, from + 1)
  }

  predicate HasHint(line: string)
  {
    FindHint(line, 0).Some?
  }

  /** The number the first match of a line carries. */
  function HintValue(line: string): nat
    requires HasHint(line)
  {
    Value(CapturedDigits(line, FindHint(line, 0).value))
  }

  /** Line `k` is the first line of `lines` that carries a hint. */
  predicate FirstHint(lines: seq<string>, k: int)
  {
    0 <= k < |lines| && HasHint(lines[k]) && forall j :: 0 <= j < k ==> !HasHint(lines[j])
  }

  /** `extractMaxRequestsFromResponse`: the number of the first hint line, an
      error when that number exceeds `MaxInt` (later lines are not tried),
      and an error when no line carries a hint. */
  function ExtractMaxRequests(lines: seq<string>): (r: Result<nat>)
    ensures r.Ok? ==> exists k :: FirstHint(lines, k) && r.value == HintValue(lines[k]) && r.value <= MaxInt
    ensures forall k :: FirstHint(lines, k) ==> (r.Ok? <==> HintValue(lines[k]) <= MaxInt)
    ensures (forall k :: 0 <= k < |lines| ==> !HasHint(lines[k])) ==> r.Err?
  {
    if lines == [] then Err(Wrapped(Failure))
    else if HasHint(lines[0]) then
      assert FirstHint(lines, 0);
      assert forall k :: FirstHint(lines, k) ==> k == 0;
      if HintValue(lines[0]) > MaxInt then Err(Wrapped(Failure)) else Ok(HintValue(lines[0]))
    else
      var r := ExtractMaxRequests(lines[1..]);
      assert forall k :: FirstHint(lines, k) <==> k > 0 && FirstHint(lines[1..], k - 1) by {
        forall k ensures FirstHint(lines, k) <==> k > 0 && FirstHint(lines[1..], k - 1) {
          if 0 < k < |lines| {
            assert forall j :: 0 < j < k ==> lines[j] == lines[1..][j - 1];
          }
        }
      }
      r
  }

  /** The line the accrual service writes for a limit of `n`. */
  function HintLine(n: nat): string
  {
    HintPrefix + Show(n) + HintSuffix
  }

  /** A hint line matches at its start and carries `n`. */
  lemma HintLineCarries(n: nat)
    ensures FindHint(HintLine(n), 0) == Some(0)
    ensures HasHint(HintLine(n)) && HintValue(HintLine(n)) == n
  {
    var line := HintLine(n);
    assert line[|HintPrefix|..] == Show(n) + HintSuffix;
    DigitRunOfDigitsThen(Show(n), HintSuffix);
    assert line[|HintPrefix| + |Show(n)|..] == HintSuffix;
    assert MatchAt(line, 0);
    ValueOfShow(n);
  }

  /** Round trip: after any lines without a hint, a hint line for a limit that
      fits an `int` is read back as that limit, whatever follows it. */
  lemma {:induction false} ExtractHintLine(before: seq<string>, n: nat, after: seq<string>)
    requires forall j :: 0 <= j < |before| ==> !HasHint(before[j])
    requires n <= MaxInt
    ensures ExtractMaxRequests(before + [HintLine(n)] + after) == Ok(n)
  {
    var lines := before + [HintLine(n)] + after;
    if before == [] {
      HintLineCarries(n);
      assert lines[0] == HintLine(n);
    } else {
      assert lines[1..] == before[1..] + [HintLine(n)] + after;
      assert lines[0] == before[0];
      ExtractHintLine(before[1..], n, after);
    }
  }

  /** A limit past `MaxInt` is a conversion error, even when a later line
      would carry a usable one. */
  lemma ExtractOverflow(n: nat, after: seq<string>)
    requires n > MaxInt
    ensures ExtractMaxRequests([HintLine(n)] + after).Err?
  {
    HintLineCarries(n);
    assert ([HintLine(n)] + after)[0] == HintLine(n);
  }
}

=== FILE: validation.dfy ===
/**
 * The order-number check of the upload handler: the Luhn modulus-10
 * "double-add-double" check digit of ISO/IEC 7812-1, Annex B. The handler
 * package declares this function twice with identical bodies; it is modelled
 * once here.
 */
module Validation {

  import opened Decimal

  /** The source's `lastDigit`: a doubled digit above it has 9 subtracted. */
  const LastDigit: nat := 9

  /** What one digit adds to the sum, doubled or not. */
  function Contribution(d: nat, double: bool): (c: nat)
    requires d <= 9
    ensures c <= 9
    ensures !double ==> c == d
  {
    if double then (if 2 * d > LastDigit then 2 * d - LastDigit else 2 * d) else d
  }

  /** The Luhn sum of the digits at positions `k..` of `s`. Parity is counted
      from the right end of `s`: the last digit is taken as is, the one before
      it doubled, and so on. */
  function LuhnSumFrom(s: string, k: nat): nat
    requires AllDigits(s) && k <= |s|
    decreases |s| - k
  {
    if k == |s| then 0
    else Contribution(DigitValue(s[k]), (|s| - k) % 2 == 0) + LuhnSumFrom(s, k + 1)
  }

  function LuhnSum(s: string): nat
    requires AllDigits(s)
  {
    LuhnSumFrom(s, 0)
  }

  /** The reference definition of a valid order number. */
  predicate LuhnValid(number: string)
  {
    AllDigits(number) && LuhnSum(number) % 10 == 0
  }

  /** `ValidateOrderNumber` as the source computes it: a first pass that
      converts characters to digits and rejects at the first non-digit, then
      a pass from the right that doubles every second digit. */
  method ValidateOrderNumber(number: string) returns (ok: bool)
    ensures ok <==> LuhnValid(number)
  {
    var digits: seq<nat> := [];
    var i := 0;
    while i < |number|
      invariant 0 <= i <= |number|
      invariant |digits| == i
      invariant forall k :: 0 <= k < i ==> IsDigit(number[k]) && digits[k] == DigitValue(number[k])
    {
      var c := number[i];
      if c < '0' || c > '9' {
        assert !IsDigit(number[i]);
        return false;
      }
      digits := digits + [DigitValue(c)];
      i := i + 1;
    }

    var sum := 0;
    var double := false;
    var j := |digits|;
    while j > 0
      invariant 0 <= j <= |digits|
      invariant double <==> (|digits| - j) % 2 == 1
      invariant sum == LuhnSumFrom(number, j)
    {
      j := j - 1;
      var digit := digits[j];
      if double {
        digit := digit * 2;
        if digit > LastDigit {
          digit := digit - LastDigit;
        }
      }
      sum := sum + digit;
      double := !double;
    }
    ok := sum % 10 == 0;
  }

  /** Any string holding a character outside '0'..'9' is rejected. */
  lemma NonDigitRejected(number: string, i: nat)
    requires i < |number| && !IsDigit(number[i])
    ensures !LuhnValid(number)
  {
  }

  /** The empty string has sum 0 and passes the check. */
  lemma EmptyAccepted()
    ensures LuhnValid("")
  {
  }

  lemma {:induction false} LeadingZeroShift(s: string, k: nat)
    requires AllDigits(s) && k <= |s|
    ensures AllDigits("0" + s)
    ensures LuhnSumFrom("0" + s, k + 1) == LuhnSumFrom(s, k)
    decreases |s| - k
  {
    var t := "0" + s;
    assert forall i :: 0 <= i < |s| ==> t[i + 1] == s[i];
    if k < |s| {
      assert t[k + 1] == s[k] && |t| - (k + 1) == |s| - k;
      LeadingZeroShift(s, k + 1);
    }
  }

  /** A leading '0' never changes the verdict, because parity is counted
      from the right. */
  lemma LeadingZeroIrrelevant(number: string)
    ensures LuhnValid("0" + number) <==> LuhnValid(number)
  {
    if AllDigits(number) {
      LeadingZeroShift(number, 0);
    } else {
      var i :| 0 <= i < |number| && !IsDigit(number[i]);
      assert ("0" + number)[i + 1] == number[i];
    }
  }

  /** Two strings that agree from position `k` on have the same suffix sum. */
  lemma {:induction false} UnchangedSuffix(s: string, t: string, k: nat)
    requires AllDigits(s) && AllDigits(t) && |s| == |t| && k <= |s|
    requires forall j :: k <= j < |s| ==> s[j] == t[j]
    ensures LuhnSumFrom(s, k) == LuhnSumFrom(t, k)
    decreases |s| - k
  {
    if k < |s| {
      UnchangedSuffix(s, t, k + 1);
    }
  }

  /** Replacing the digit at position `i` shifts every suffix sum that covers
      `i` by the difference of the two contributions at that position. */
  lemma {:induction false} LuhnSumUpdate(s: string, k: nat, i: nat, c: char)
    requires AllDigits(s) && k <= i < |s| && IsDigit(c)
    ensures AllDigits(s[i := c])
    ensures LuhnSumFrom(s[i := c], k) + Contribution(DigitValue(s[i]), (|s| - i) % 2 == 0)
         == LuhnSumFrom(s, k) + Contribution(DigitValue(c), (|s| - i) % 2 == 0)
    decreases |s| - k
  {
    if k < i {
      LuhnSumUpdate(s, k + 1, i, c);
    } else {
      UnchangedSuffix(s, s[i := c], k + 1);
    }
  }

  /** For a fixed position, distinct digits contribute distinct amounts. */
  lemma ContributionInjective(a: nat, b: nat, double: bool)
    requires a <= 9 && b <= 9 && a != b
    ensures Contribution(a, double) != Contribution(b, double)
  {
  }

  lemma NonZeroShiftBreaksCheck(sum: int, delta: int)
    requires sum % 10 == 0 && -9 <= delta <= 9 && delta != 0
    ensures (sum + delta) % 10 != 0
  {
    var q := sum / 10;
    assert sum == 10 * q;
    if delta > 0 {
      assert 10 * q < sum + delta < 10 * q + 10;
    } else {
      assert 10 * q - 10 < sum + delta < 10 * q;
    }
  }

  /** Luhn detects every single-digit error: changing exactly one digit of an
      accepted number makes it rejected. */
  lemma SingleDigitErrorDetected(number: string, i: nat, c: char)
    requires LuhnValid(number)
    requires i < |number| && IsDigit(c) && c != number[i]
    ensures !LuhnValid(number[i := c])
  {
    var parity := (|number| - i) % 2 == 0;
    LuhnSumUpdate(number, 0, i, c);
    ContributionInjective(DigitValue(number[i]), DigitValue(c), parity);
    var delta := Contribution(DigitValue(c), parity) - Contribution(DigitValue(number[i]), parity);
    NonZeroShiftBreaksCheck(LuhnSum(number), delta);
  }

  /** The order numbers of the upload handler tests are accepted, "invalid" is not. */
  lemma HandlerTestNumbers()
    ensures LuhnValid("12345678903")
    ensures LuhnValid("9278923470")
    ensures LuhnValid("4324802833166747")
    ensures !LuhnValid("invalid")
  {
    AcceptedTestNumber();
    ConflictTestNumber();
    OkTestNumber();
    assert !IsDigit("invalid"[0]);
  }

  lemma AcceptedTestNumber()
    ensures LuhnValid("12345678903")
  {
    var s := "12345678903";
    assert AllDigits(s) by { forall i | 0 <= i < |s| ensures IsDigit(s[i]) { } }
    assert LuhnSumFrom(s, 10) == 3;
    assert LuhnSumFrom(s, 9) == 3;
    assert LuhnSumFrom(s, 8) == 12;
    assert LuhnSumFrom(s, 7) == 19;
    assert LuhnSumFrom(s, 6) == 26;
    assert LuhnSumFrom(s, 5) == 29;
    assert LuhnSumFrom(s, 4) == 34;
    assert LuhnSumFrom(s, 3) == 42;
    assert LuhnSumFrom(s, 2) == 45;
    assert LuhnSumFrom(s, 1) == 49;
    assert LuhnSumFrom(s, 0) == 50;
  }

  lemma ConflictTestNumber()
    ensures LuhnValid("9278923470")
  {
    var s := "9278923470";
    assert AllDigits(s) by { forall i | 0 <= i < |s| ensures IsDigit(s[i]) { } }
    assert LuhnSumFrom(s, 9) == 0;
    assert LuhnSumFrom(s, 8) == 5;
    assert LuhnSumFrom(s, 7) == 9;
    assert LuhnSumFrom(s, 6) == 15;
    assert LuhnSumFrom(s, 5) == 17;
    assert LuhnSumFrom(s, 4) == 26;
    assert LuhnSumFrom(s, 3) == 34;
    assert LuhnSumFrom(s, 2) == 39;
    assert LuhnSumFrom(s, 1) == 41;
    assert LuhnSumFrom(s, 0) == 50;
  }

  lemma OkTestNumber()
    ensures LuhnValid("4324802833166747")
  {
    var s := "4324802833166747";
    assert AllDigits(s) by { forall i | 0 <= i < |s| ensures IsDigit(s[i]) { } }
    assert LuhnSumFrom(s, 15) == 7;
    assert LuhnSumFrom(s, 14) == 15;
    assert LuhnSumFrom(s, 13) == 22;
    assert LuhnSumFrom(s, 12) == 25;
    assert LuhnSumFrom(s, 11) == 31;
    assert LuhnSumFrom(s, 10) == 33;
    assert LuhnSumFrom(s, 9) == 36;
    assert LuhnSumFrom(s, 8) == 42;
    assert LuhnSumFrom(s, 7) == 50;
    assert LuhnSumFrom(s, 6) == 54;
    assert LuhnSumFrom(s, 5) == 54;
    assert LuhnSumFrom(s, 4) == 61;
    assert LuhnSumFrom(s, 3) == 65;
    assert LuhnSumFrom(s, 2) == 69;
    assert LuhnSumFrom(s, 1) == 72;
    assert LuhnSumFrom(s, 0) == 80;
  }

  /** The worked example of the Luhn check. */
  lemma StandardExample()
    ensures LuhnValid("79927398713")
  {
    var s := "79927398713";
    assert AllDigits(s) by { forall i | 0 <= i < |s| ensures IsDigit(s[i]) { } }
    assert LuhnSumFrom(s, 10) == 3;
    assert LuhnSumFrom(s, 9) == 5;
    assert LuhnSumFrom(s, 8) == 12;
    assert LuhnSumFrom(s, 7) == 19;
    assert LuhnSumFrom(s, 6) == 28;
    assert LuhnSumFrom(s, 5) == 34;
    assert LuhnSumFrom(s, 4) == 41;
    assert LuhnSumFrom(s, 3) == 45;
    assert LuhnSumFrom(s, 2) == 54;
    assert LuhnSumFrom(s, 1) == 63;
    assert LuhnSumFrom(s, 0) == 70;
  }
}

=== FILE: withdrawal_handler.dfy ===
/**
 * The `Withdraw` HTTP handler: decode the request, identify the user, check
 * the balance, check the order, then debit. The first check that fails
 * answers, and only the last step writes.
 *
 * The order check calls an `OrderExists` use case that the order service does
 * not implement; it is modelled as the repository's `OrderExistsForUser`,
 * which is what the handler's tests stub.
 */
module WithdrawalHandler {

  import opened Domain
  import opened OrderPersistence
  import opened WithdrawalService
  import opened BalanceService
  import WP = WithdrawalPersistence
  import LP = LoyaltyPointPersistence

  /** The decoded JSON body. */
  datatype WithdrawRequest = WithdrawRequest(order: string, sum: real)

  /** Which of the calls behind the handler fail. */
  datatype WithdrawFaults = WithdrawFaults(loyaltyFails: bool, withdrawalFails: bool, orderFails: bool, debit: WP.WithdrawFault)

  const NoFaults: WithdrawFaults := WithdrawFaults(false, false, false, WP.NoFault)

  datatype Withdrawal = Withdrawal(code: int, store: Store)

  /** The current points of `user` as the loyalty repository reports them:
      the only balance figure the handler uses. */
  function Current(s: Store, user: int): real
  {
    LP.GetCurrentPoints(s.points, user, false).0
  }

  /** `Withdraw`. A request body that does not decode is `None`; `now` is the
      database clock at the debit. */
  function Withdraw(req: Option<WithdrawRequest>, user: Option<int>, s: Store, f: WithdrawFaults, now: int): (r: Withdrawal)
    ensures req.None? ==> r == Withdrawal(HttpUnprocessableEntity, s)
    ensures req.Some? && user.None? ==> r == Withdrawal(HttpUnauthorized, s)
    ensures req.Some? && user.Some? && (f.loyaltyFails || f.withdrawalFails) ==> r == Withdrawal(HttpInternalServerError, s)
    // a balance too low answers 402 before the order is looked at
    ensures r.code == HttpPaymentRequired <==>
      req.Some? && user.Some? && !f.loyaltyFails && !f.withdrawalFails && !ValidBalance(Current(s, user.value), req.value.sum)
    // 422: a body that does not decode, or an order the user does not own once the balance passed
    ensures r.code == HttpUnprocessableEntity <==>
      req.None?
      || (user.Some? && !f.loyaltyFails && !f.withdrawalFails && ValidBalance(Current(s, user.value), req.value.sum)
          && !f.orderFails && !OwnedBy(s.orders, user.value, req.value.order))
    // a failing order lookup or a failing debit, after the balance passed, answers 500
    ensures req.Some? && user.Some? && !f.loyaltyFails && !f.withdrawalFails && ValidBalance(Current(s, user.value), req.value.sum)
            && (f.orderFails || (OwnedBy(s.orders, user.value, req.value.order) && f.debit != WP.NoFault)) ==>
      r == Withdrawal(HttpInternalServerError, s)
    // the debit happens exactly when every check passed and it commits
    ensures r.code == HttpOK <==>
      req.Some? && user.Some? && !f.loyaltyFails && !f.withdrawalFails && ValidBalance(Current(s, user.value), req.value.sum)
      && !f.orderFails && OwnedBy(s.orders, user.value, req.value.order) && f.debit == WP.NoFault
    ensures r.code == HttpOK ==>
      r.store == Store(s.orders, s.points + [PointRow(user.value, 0.0, req.value.sum)],
                       s.withdrawals + [WithdrawalRow(user.value, req.value.order, req.value.sum, now)])
    ensures r.code != HttpOK ==> r.store == s
    ensures r.code in {HttpOK, HttpUnauthorized, HttpPaymentRequired, HttpUnprocessableEntity, HttpInternalServerError}
  {
    match req
    case None => Withdrawal(HttpUnprocessableEntity, s)
    case Some(WithdrawRequest(order, sum)) =>
      match user
      case None => Withdrawal(HttpUnauthorized, s)
      case Some(id) =>
        var balance := GetBalanceByUserID(s, id, f.loyaltyFails, f.withdrawalFails);
        if balance.err.Some? then Withdrawal(HttpInternalServerError, s)
        else if !ValidBalance(balance.current, sum) then Withdrawal(HttpPaymentRequired, s)
        else
          match OrderExistsForUser(s.orders, id, order, f.orderFails)
          case Err(_) => Withdrawal(HttpInternalServerError, s)
          case Ok(owned) =>
            if !owned then Withdrawal(HttpUnprocessableEntity, s)
            else
              match WithdrawalService.WithdrawFunds(s, id, order, sum, now, f.debit)
              case Err(_) => Withdrawal(HttpInternalServerError, s)
              case Ok(after) => Withdrawal(HttpOK, after)
  }

  /** The withdrawn total plays no part: two ledgers that differ only in
      their withdrawal rows get the same answer. */
  lemma WithdrawIgnoresWithdrawnTotal(req: Option<WithdrawRequest>, user: Option<int>, s: Store, s': Store, f: WithdrawFaults, now: int)
    requires s'.orders == s.orders && s'.points == s.points
    ensures Withdraw(req, user, s', f, now).code == Withdraw(req, user, s, f, now).code
  {
  }

  /** A withdrawal keeps both ledger invariants and never takes the
      user's current points below zero. */
  lemma WithdrawKeepsInvariants(req: Option<WithdrawRequest>, user: Option<int>, s: Store, f: WithdrawFaults, now: int)
    requires UniqueOwners(s.orders) && SpentMatchesWithdrawals(s)
    ensures var r := Withdraw(req, user, s, f, now);
      UniqueOwners(r.store.orders) && SpentMatchesWithdrawals(r.store)
    ensures var r := Withdraw(req, user, s, f, now);
      user.Some? && Current(s, user.value) >= 0.0 ==> Current(r.store, user.value) >= 0.0
  {
    var r := Withdraw(req, user, s, f, now);
    if r.code == HttpOK {
      var id := user.value;
      var sum := req.value.sum;
      WP.WithdrawFundsKeepsLedger(s, id, req.value.order, sum, now, WP.NoFault);
      WP.WithdrawFundsMovesPoints(s, id, req.value.order, sum, now, id + 1);
      assert Current(r.store, id) == Current(s, id) - sum;
    }
  }

  /** Nothing checks the sign of `sum`: a negative sum passes the balance
      check, the debit row's negative `spent` credits the user, and the answer
      is 200. */
  lemma NegativeSumRaisesPoints(order: string, user: int, sum: real, s: Store, now: int)
    requires sum < 0.0 && Current(s, user) >= 0.0
    requires OwnedBy(s.orders, user, order)
    ensures var r := Withdraw(Some(WithdrawRequest(order, sum)), Some(user), s, NoFaults, now);
      r.code == HttpOK && Current(r.store, user) == Current(s, user) - sum && Current(r.store, user) > Current(s, user)
  {
    var r := Withdraw(Some(WithdrawRequest(order, sum)), Some(user), s, NoFaults, now);
    LP.CurrentPointsAppend(s.points, PointRow(user, 0.0, sum), user);
    assert r.store.points == s.points + [PointRow(user, 0.0, sum)];
  }

  /** `Withdraw` with the evidently intended check that the sum is positive,
      answered like an undecodable body. Every 200 then lowers the user's
      current points and leaves them non-negative. */
  function WithdrawCorrected(req: Option<WithdrawRequest>, user: Option<int>, s: Store, f: WithdrawFaults, now: int): (r: Withdrawal)
    ensures req.Some? && req.value.sum <= 0.0 ==> r == Withdrawal(HttpUnprocessableEntity, s)
    ensures req.None? || req.value.sum > 0.0 ==> r == Withdraw(req, user, s, f, now)
    ensures r.code == HttpOK ==> 0.0 <= Current(r.store, user.value) < Current(s, user.value)
    ensures r.code != HttpOK ==> r.store == s
  {
    if req.Some? && req.value.sum <= 0.0 then Withdrawal(HttpUnprocessableEntity, s)
    else
      var r := Withdraw(req, user, s, f, now);
      if r.code == HttpOK then
        LP.CurrentPointsAppend(s.points, PointRow(user.value, 0.0, req.value.sum), user.value);
        r
      else r
  }

  /** The three cases of the handler test, each with a ledger that holds the
      balance the test double reports. */
  lemma WithdrawTestCases()
    // 200 with 200 points, withdrawing 100 against the user's own order
    ensures Withdraw(Some(WithdrawRequest("2377225624", 100.0)), Some(1),
                     Store([OrderRow(1, "2377225624", StatusProcessed)], [PointRow(1, 200.0, 0.0)], []), NoFaults, 0).code == HttpOK
    // 402 with 300 points, withdrawing 500
    ensures Withdraw(Some(WithdrawRequest("123456", 500.0)), Some(1),
                     Store([], [PointRow(1, 300.0, 0.0)], []), NoFaults, 0).code == HttpPaymentRequired
    // 422 with 200 points, withdrawing 100 against an order the user never uploaded
    ensures Withdraw(Some(WithdrawRequest("999999", 100.0)), Some(1),
                     Store([], [PointRow(1, 200.0, 0.0)], []), NoFaults, 0).code == HttpUnprocessableEntity
  {
    var credit200 := [PointRow(1, 200.0, 0.0)];
    assert credit200[..0] == [];
    assert Current(Store([], credit200, []), 1) == 200.0;
    var credit300 := [PointRow(1, 300.0, 0.0)];
    assert credit300[..0] == [];
    assert Current(Store([], credit300, []), 1) == 300.0;
    var owned := [OrderRow(1, "2377225624", StatusProcessed)];
    assert owned[0].userId == 1 && owned[0].number == "2377225624";
    assert Current(Store(owned, credit200, []), 1) == 200.0;
  }
}

=== FILE: withdrawal_service.dfy ===
/**
 * The withdrawal and balance use cases over the point ledger. They add no
 * state of their own: errors are mapped, results are forwarded.
 */
module WithdrawalService {

  import opened Domain
  import LP = LoyaltyPointPersistence
  import WP = WithdrawalPersistence

  /** `ValidBalance`: a withdrawal of `sum` is covered by `current`; spending
      the whole balance is allowed. */
  predicate ValidBalance(current: real, sum: real)
  {
    current >= sum
  }

  /** A sum passes `ValidBalance` against the current points exactly when
      debiting it leaves the user's current points non-negative. */
  lemma ValidBalanceKeepsNonNegative(s: Store, user: int, order: string, sum: real, now: int)
    ensures var after := WithdrawFunds(s, user, order, sum, now, WP.NoFault).value;
      ValidBalance(LP.GetCurrentPoints(s.points, user, false).0, sum) <==> LP.GetCurrentPoints(after.points, user, false).0 >= 0.0
  {
    LP.CurrentPointsAppend(s.points, PointRow(user, 0.0, sum), user);
  }

  /** `WithdrawFunds`: the repository call with the same user, order and sum;
      whatever went wrong is reported as exactly `ErrInternalServer`. */
  function WithdrawFunds(s: Store, user: int, order: string, sum: real, now: int, fault: WP.WithdrawFault): (r: Result<Store>)
    ensures r.Err? ==> r.error == InternalServer
    ensures r.Ok? <==> fault == WP.NoFault
    ensures r.Ok? ==> r.value.orders == s.orders
    ensures r.Ok? ==> r.value.points == s.points + [PointRow(user, 0.0, sum)]
    ensures r.Ok? ==> r.value.withdrawals == s.withdrawals + [WithdrawalRow(user, order, sum, now)]
  {
    match WP.WithdrawFunds(s, user, order, sum, now, fault)
    case Err(_) => Err(InternalServer)
    case Ok(after) =>
      assert after.points == after.points[..|s.points|] + [after.points[|s.points|]];
      assert after.withdrawals == after.withdrawals[..|s.withdrawals|] + [after.withdrawals[|s.withdrawals|]];
      Ok(after)
  }

  /** `GetWithdrawalsByUserID`: the repository's list unchanged, or its error
      wrapped, so that `errors.Is` still finds the cause. */
  function GetWithdrawalsByUserID(withdrawals: seq<WithdrawalRow>, user: int, fails: bool): (r: Result<seq<WithdrawalRow>>)
    ensures fails ==> r.Err? && r.error == Wrapped(InternalServer) && Is(r.error, InternalServer)
    ensures !fails ==> r.Ok? && WP.SortedByTime(r.value)
    ensures r.Ok? ==> forall w :: w in r.value <==> w in withdrawals && w.userId == user
    ensures r.Ok? ==> multiset(r.value) == multiset(WP.UserWithdrawals(withdrawals, user))
  {
    match WP.GetWithdrawalsByUserID(withdrawals, user, fails)
    case Err(e) => Err(Wrapped(e))
    case Ok(rows) => Ok(rows)
  }
}

module BalanceService {

  import opened Domain
  import LP = LoyaltyPointPersistence
  import WP = WithdrawalPersistence

  /** The answer of `GetBalanceByUserID`, with whether the withdrawal
      repository was asked at all. */
  datatype Balance = Balance(current: real, withdrawn: real, err: Option<Error>, askedWithdrawals: bool)

  /** `GetBalanceByUserID`: the current points and the withdrawn total as the
      two repositories report them; either failing gives (0, 0, ErrInternalServer).
      It returns no store: the call changes nothing. */
  function GetBalanceByUserID(s: Store, user: int, loyaltyFails: bool, withdrawalFails: bool): (b: Balance)
    ensures loyaltyFails ==> b == Balance(0.0, 0.0, Some(InternalServer), false)
    ensures !loyaltyFails && withdrawalFails ==> b == Balance(0.0, 0.0, Some(InternalServer), true)
    ensures b.err.None? <==> !loyaltyFails && !withdrawalFails
    ensures b.err.None? ==> b.current == Accrued(s.points, user) - Spent(s.points, user)
    ensures b.err.None? ==> b.withdrawn == Withdrawn(s.withdrawals, user)
  {
    var (current, err) := LP.GetCurrentPoints(s.points, user, loyaltyFails);
    if err.Some? then Balance(0.0, 0.0, Some(InternalServer), false)
    else
      var (withdrawn, err') := WP.GetWithdrawalPoints(s.withdrawals, user, withdrawalFails);
      if err'.Some? then Balance(0.0, 0.0, Some(InternalServer), true)
      else Balance(current, withdrawn, None, true)
  }

  /** In a consistent ledger, current plus withdrawn is everything the user
      was ever credited. */
  lemma BalanceAddsUp(s: Store, user: int)
    requires SpentMatchesWithdrawals(s)
    ensures var b := GetBalanceByUserID(s, user, false, false);
      b.current + b.withdrawn == Accrued(s.points, user)
  {
  }

  /** The service test's figures, 500.5 current and 42 withdrawn, come from a
      ledger with one credit of 542.5 and one withdrawal of 42. */
  lemma BalanceTestCase()
    ensures var s := Store([], [PointRow(1, 542.5, 0.0), PointRow(1, 0.0, 42.0)], [WithdrawalRow(1, "2377225624", 42.0, 0)]);
      GetBalanceByUserID(s, 1, false, false) == Balance(500.5, 42.0, None, true)
  {
    var points := [PointRow(1, 542.5, 0.0), PointRow(1, 0.0, 42.0)];
    assert points[..1] == [PointRow(1, 542.5, 0.0)];
    assert points[..1][..0] == [];
    assert Accrued(points, 1) == 542.5;
    assert Spent(points, 1) == 42.0;
    var withdrawals := [WithdrawalRow(1, "2377225624", 42.0, 0)];
    assert withdrawals[..0] == [];
    assert Withdrawn(withdrawals, 1) == 42.0;
  }
}
